=== FILE: README.md ===
# Instagram post pipeline — a Dafny model

The system generates Instagram posts with three services and a web gateway:

- **Agent1** (`agent1-local/app.py`) asks a local Ollama model for a caption
  draft. It always answers 200 with a one-element `content` list, and it
  reports its own failures as text beginning with "Erro".
- **Agent2** (`agent2-gemini/app.py`) asks Gemini to refine a caption and to
  suggest hashtags, which it normalises. It also asks Gemini for an image
  description, writes it to a time-stamped file and answers with a sentence
  naming that file.
- **The orchestrator** (`api/main.py`) has one HTTP client per agent. It
  checks that both agents are up with a bounded retry loop, then runs the
  pipeline draft → refine → image prompt. Each stage is fed the previous
  stage's output, and each stage's payload goes through a minimum-length
  gate. Every failure becomes an `OrchestratorError`.
- **The web gateway** (`api/web_app.py`) runs its own copy of the three
  calls, without the length gates, and saves each result as
  `post_YYYYmmdd_HHMMSS.json` in a history directory. It serves the ten
  newest entries of that directory and looks up or downloads single files.

The model is a set of pure functions over immutable data:

- JSON values are a datatype.
- An HTTP exchange is an `Outcome`: a reply with a status and a body, a
  timeout, a refused connection, or any other failure.
- The history directory is a map from file names to contents.
- Everything the services get from outside is a parameter:
  - the network (`Call -> Outcome`);
  - Ollama and Gemini;
  - the clock readings;
  - the failure of a file write;
  - Python's `str()` of a list or dict.

The health loop and the history listing are methods with loop invariants.
The orchestrator's pipeline is given twice, as the straight-line driver the
code is and as the state machine Start → DraftGenerated → Refined →
ImagePromptGenerated → Complete, with Failed reachable from every stage call.
A lemma shows the two agree.

Modules, one per file:

- `Results`: Option and Result.
- `PyText`: the Python string operations used (`strip`, `rstrip`, `split`,
  `join`, `replace`, `str(int)`, string ordering).
- `JsonValues`: JSON values and the Python operations on them (`.get`, `len`,
  truth value, `str`).
- `Http`: requests, outcomes and responses.
- `Stamps`: `strftime('%Y%m%d_%H%M%S')`.
- `StageClients`: the orchestrator's clients.
- `HealthProbe`: the readiness loop.
- `Workflow`: the pipeline.
- `Agent1Service` and `Agent2Service`: the two agents.
- `HistoryStore`: the gateway's history directory.
- `WebGateway`: `generate_post`.
- `EndToEnd`: what each consumer makes of what each producer sends.

Behaviour of the code that a reader might not expect, and that the model
keeps:

- **Errors carry only text.** Every stage failure is an `OrchestratorError`
  holding a message, with no separate kind. A non-200 status or a
  too-short payload is raised inside the stage's own `try`, caught again by
  the blanket handler, and given the "Erro ao chamar …" prefix.
- **The gateway calls the agents itself.** It does not go through the
  orchestrator. It repeats the three calls with no length checks.
- **The gateway can save a rejected run.** It writes the history file
  before it builds its response model, so a run whose response is rejected
  leaves a saved file.
- **A missing history file is a 500** (see Findings).
- **Timestamps use local time.** They come from `datetime.now()`, which here
  is a parameter.

## Model

| member | source | states |
|---|---|---|
| StageClients.NewClient | api/main.py:39-41 | the stored base URL is a prefix of the given one, only '/' characters were dropped, and it does not end in '/' |
| StageClients.NewClientIdempotent | api/main.py:40 | trimming an already trimmed URL gives the same client |
| StageClients.HealthCheck | api/main.py:43-53 | healthy exactly when the probe got a reply with status 200; every transport failure is "not ready" and nothing is raised |
| StageClients.LengthGate | api/main.py:83-87 | a value passes exactly when it is a non-empty string of at least the minimum length, counted before stripping; what passes is the stripped string; a short or empty string, and any falsy value (`null`, `false`, `0`, an empty list or dict), gives the stage's "empty" message; a truthy value without a length (a non-zero number, `true`) gives the TypeError text "object of type '…' has no len()" |
| StageClients.CallStage | api/main.py:55-94 | a stage succeeds exactly on a 200 reply with a JSON body whose payload is a long enough string, and yields it stripped. A timeout gives the stage's timeout message. A refused connection gives the connection prefix and the reason. Any other transport failure, a body that is not JSON, and an exception while reading the payload each give the blanket-handler prefix and the exception text. A non-200 status gives the same prefix followed by "AgentN retornou status …". A string payload shorter than the stage's minimum gives the same prefix followed by the stage's "empty" message; more generally, whatever error the length gate reports for the payload (the "empty" message, or the no-len TypeError text) follows the same prefix |
| StageClients.DraftText | api/main.py:74-81 | a body that is not a dict, or has no `content`, is rendered with `str()`. A non-empty `content` list gives its first element's "text", and a `content` dict its own "text"; "" when the key is absent; AttributeError when that element is not a dict. A string `content` is taken as it is. Any other `content`, an empty list included, is rendered with `str()` |
| StageClients.ImagePathGate | api/main.py:178-183 | the image stage yields a string `image_path` of at least 5 characters stripped, and rejects a shorter one with "Erro ao chamar Agent2: Agent2 retornou prompt vazio" |
| StageClients.DraftEnvelopeShapes | api/main.py:74-79 | the draft stage reads the list envelope and the dict envelope alike, and yields the stripped text when it has at least 10 characters |
| StageClients.DraftLengthBoundary | api/main.py:83-84 | a 10-character draft is accepted and a 9-character draft is rejected as empty |
| StageClients.AcceptedDraftMayBeShort | api/main.py:83-87 | nine blanks and one visible character pass the gate and come back as that one character |
| StageClients.StatusCheckedBeforeBody | api/main.py:67-70 | with a non-200 status the stage fails, and the body does not affect the result |
| StageClients.ImprovedTextGate | api/main.py:141-147 | a string `improved_text` of at least 10 characters comes back stripped; a shorter one is rejected as empty |
| HealthProbe.VerifyAgentsHealth | api/main.py:204-220 | success exactly at the first attempt k ≤ retries in which both agents' readiness requests get a 200 reply. Otherwise failure after exactly `retries` attempts (none when retries ≤ 0). The events performed are both probes per attempt, Agent1 first, with one sleep between consecutive attempts. Every probe is `GET {base}/` of that agent's own client |
| HealthProbe.ScheduleRequests | api/main.py:207-208 | every probe of the schedule is the readiness request of the agent it names, in an attempt between 1 and n |
| HealthProbe.ScheduleCounts | api/main.py:207-217 | n attempts probe each agent n times and sleep n − 1 times |
| HealthProbe.CountsAppend | api/main.py:207-217 | probe and sleep counts add up over concatenated traces |
| Workflow.NewRequest | api/main.py:222-228 | a missing tone is "criativo" and a missing audience "público geral" (the gateway's request model at api/web_app.py:49-53 has the same defaults); given values are kept |
| Workflow.RunWorkflow | api/main.py:222-274 | the driver sends one to three requests, the draft request first, each later one built from the previous stage's output; the first failure ends the run with that stage's error unchanged, and no later request is sent; a successful run made all three requests and carries their outputs, the timestamp and the request as metadata |
| Workflow.RunAfterDraft | api/main.py:244-268 | the same sequencing once the draft stage has succeeded |
| Workflow.Step | api/main.py:239-268 | a terminal state stays put; any other state moves one stage forward or to Failed, sending at most one request; a failure records the stage whose request failed |
| Workflow.MachineMatchesDriver | api/main.py:239-274 | run from Start, the state machine sends the same requests as the driver and ends, within four steps, in Complete with the driver's result or in Failed with its error |
| Workflow.DriveFromRefined | api/main.py:252-268 | from Refined the machine makes the image-prompt request and settles |
| Workflow.DriveFromDrafted | api/main.py:244-250 | from DraftGenerated the machine makes the improve request, then fails or continues from Refined |
| Workflow.DriveFromStart | api/main.py:239-242 | a successful draft request leads from Start to DraftGenerated |
| Workflow.AgreeFailingDraft | api/main.py:239-242 | a failing draft stage gives the same request and error in both forms |
| Workflow.AgreeFailingImprove | api/main.py:244-250 | a failing improve stage gives the same requests and error in both forms |
| Workflow.AgreeAfterImprove | api/main.py:244-256 | after two successful stages the machine has sent the three requests in order |
| Workflow.AgreeImagePrompt | api/main.py:252-268 | the image-prompt stage settles both forms in the same state |
| Workflow.FailureReachable | api/main.py:89-90 | from each state that makes a request, an agent that times out leads to Failed for that state's stage, with the stage's timeout message |
| Agent1Service.NewDraftRequest | agent1-local/app.py:21-24 | a missing tone is "neutro"; topic and style are kept |
| Agent1Service.GenerateDraft | agent1-local/app.py:27-54 | it never raises; a usable caption comes back stripped and non-empty; a non-200 status N gives "Erro: Status N"; a refused connection gives its fixed prefix and the exception text; a timeout, any other failure, and a 200 body that is not JSON give the generic failure prefix followed by the exception text; every failure text begins with "Erro" and has at least 10 characters |
| Agent1Service.CaptionOf | agent1-local/app.py:42-54 | a string `response` that is not all white space gives its stripped text; a missing or blank one gives "Erro: Resposta vazia do Ollama"; a body that is not a dict gives "Erro ao conectar Ollama: " followed by the AttributeError text of `.get`, and a `response` that is not a string the same prefix followed by the AttributeError text of `.strip` |
| Agent1Service.CaptionOfString | agent1-local/app.py:42-48 | a string `response` gives its stripped text, or the empty-reply text when stripping leaves nothing |
| Agent1Service.ErrorPrefixes | agent1-local/app.py:38-54 | each failure text begins with "Erro" and has at least 10 characters, whatever the reason or status |
| Agent1Service.StatusTextTrimmed | agent1-local/app.py:40 | a status text is not blank and has no white space at either end |
| Agent1Service.TrimmedCaptionKept | agent1-local/app.py:42-45 | a caption with no white space at either end comes back unchanged |
| Agent1Service.StatusErrorLooksLikeDraft | agent1-local/app.py:38-45 | a non-200 status gives the same text as a successful reply whose caption is that status text, so a caller cannot tell them apart |
| Agent1Service.ParsedReplyCaption | agent1-local/app.py:38-42 | a 200 reply whose body is JSON is read by the caption extraction |
| Agent1Service.Envelope | agent1-local/app.py:71-79 | the answer always has `content` = a one-element list holding the text; on an exception the text is "Erro: " plus the message and an `error` field carries the message |
| Agent1Service.ApiGenerateDraft | agent1-local/app.py:65-79 | the endpoint always answers 200 with the envelope around the tool's text and never has an `error` field |
| Agent2Service.Resolve | agent2-gemini/app.py:30-33 | an absent optional field takes its default, an explicit null is None, a given value is kept |
| Agent2Service.TagOf | agent2-gemini/app.py:162 | each tag is '#' followed by the stripped piece with every '#' removed, so it has no other '#' |
| Agent2Service.Tags | agent2-gemini/app.py:161-164 | at most one tag per piece, each well formed |
| Agent2Service.NonBlank | agent2-gemini/app.py:164 | the filter `if tag.strip()` keeps no blank piece and no more pieces than it was given |
| Agent2Service.NonBlankMembers | agent2-gemini/app.py:164 | a piece is kept exactly when it occurs among the pieces and is not blank |
| Agent2Service.TagsOfKept | agent2-gemini/app.py:161-164 | for any pieces, blank or not, the tags are exactly `TagOf` of the kept pieces, one each, in their order |
| Agent2Service.TagsOfNonBlank | agent2-gemini/app.py:161-164 | when no piece is blank, the tags are exactly the pieces' tags, in order |
| Agent2Service.BlankPieceDropped | agent2-gemini/app.py:164 | a blank piece leaves no tag |
| Agent2Service.NormaliseHashtags | agent2-gemini/app.py:161-165 | at most 10 well-formed tags, and they are the first ones of the comma-separated pieces' tags, in order |
| Agent2Service.HashtagsOfCommaList | agent2-gemini/app.py:142-165 | one to ten trimmed words without ',' or '#', joined by commas, give exactly '#' + each word, in order |
| Agent2Service.TagMayEndInSpace | agent2-gemini/app.py:162 | the piece w + " #" gives "#" + w + " ": stripping happens before '#' is removed, so a tag can end in a space |
| Agent2Service.TagOfTrimmed | agent2-gemini/app.py:162 | a piece with no white space at either end loses only its '#' characters |
| Agent2Service.BareHashKept | agent2-gemini/app.py:162-164 | a piece made only of '#' characters is kept as the bare tag "#" |
| Agent2Service.Improve | agent2-gemini/app.py:89-178 | the caption prompt carries the draft and the resolved style and audience; the reply is 200 exactly when Gemini answers non-empty text and then answers the hashtag prompt, which is built from the stripped caption; a 200 body holds the stripped caption and the normalised hashtags; every failure is a 500 whose detail is "Erro ao melhorar caption: " followed by the text of the exception: Gemini's own error message when either call fails, and "500: Gemini não retornou resposta" when the first answer is empty |
| Agent2Service.CaptionReplyText | agent2-gemini/app.py:167-172 | the reply's `improved_text` is the caption it was built from |
| Agent2Service.EmptyCaptionAnswer | agent2-gemini/app.py:133-178 | an empty Gemini answer gives a 500 whose detail folds in the inner exception: "Erro ao melhorar caption: 500: Gemini não retornou resposta" |
| Agent2Service.GenerateImage | agent2-gemini/app.py:181-243 | 200 exactly when Gemini answers non-empty text and the write succeeds; the file written is image_prompt_<stamp>.txt holding the header and the unstripped text; the body's `image_path` is the sentence naming that file; every failure is a 500 whose detail is "Erro ao gerar descrição de imagem: " followed by the exception text: Gemini's error message, the write error's message, or "500: Gemini não retornou uma descrição para a imagem." for an empty answer |
| Agent2Service.ImageFilesByInstant | agent2-gemini/app.py:225-227 | two descriptions get the same file exactly when written in the same second, and the file names sort in the order they were written |
| Agent2Service.Health | agent2-gemini/app.py:69-86 | 200 exactly when the key is set, non-empty and not the placeholder; otherwise 503 with the first exception's text folded into the detail |
| Agent2Service.RunningServiceRejectsOnlyPlaceholder | agent2-gemini/app.py:15-17 | once the service has started, the health check fails only for the placeholder key |
| WebGateway.StageBody | api/web_app.py:156-162 | a timeout is 504, a refused connection 503; a non-200 reply is 500 with detail "500: <stage label><text>", because the first 500 is caught again; any other transport failure, and a 200 reply whose body is not JSON, is 500 with the exception text as detail; only a 200 JSON reply passes its body on |
| WebGateway.WebDraft | api/web_app.py:91-92 | a list `content` gives its first element's "text" (an empty list raises IndexError); a dict `content` gives its "text"; a missing `content` gives ""; a body that is not a dict raises AttributeError, and so does a `content` that is neither a list nor a dict (a string, say) — unlike the orchestrator, which takes a string `content` as the draft; the gateway's blanket handler turns that AttributeError into a 500 |
| WebGateway.PostDoc | api/web_app.py:133-144 | the saved document has exactly the keys draft, final_post, image_prompt, timestamp and metadata. They hold the three values and the ISO time. `metadata` has exactly the request's topic, style, tone and target audience, as strings |
| WebGateway.Finish | api/web_app.py:132-154 | a failed write answers 500 and leaves the directory alone; otherwise the document is saved under the post's name, and then the answer is 200 with only draft, final_post, image_prompt and timestamp exactly when all three values are strings, else 500 |
| WebGateway.GeneratePost | api/web_app.py:68-162 | one to three requests, the draft request first; every request but the last yielded a JSON body; 504 and 503 mean exactly that the last request timed out or could not connect; the directory changes only by one document saved under the post's name after all three requests succeeded; a 200 answer carries exactly the saved values |
| WebGateway.AfterDraft | api/web_app.py:94-111 | the improve request carries the draft read from Agent1, and the rest of the run keeps the same guarantees |
| WebGateway.AfterImprove | api/web_app.py:113-130 | the image request carries the refined post, and the rest of the run keeps the same guarantees |
| WebGateway.AllAnswered | api/web_app.py:68-154 | when each agent answers 200 with the field read, the three requests go out in order, each carrying the previous value, and the run ends in saving the document |
| WebGateway.EmptyDraftAccepted | api/web_app.py:92-111 | no length check: an empty draft is sent on and an empty post is answered with 200 |
| WebGateway.EmptyContentListIs500 | api/web_app.py:92 | an empty `content` list ends the request after the first call with 500 "list index out of range", and nothing is saved |
| WebGateway.SavedThoughRejected | api/web_app.py:146-154 | a null image prompt is saved, and then the request is answered with 500 |
| WebGateway.PostDocEntry | api/web_app.py:174-179 | a saved post's history entry shows its file name, timestamp, the request's topic and the final post |
| WebGateway.SavedPostReadBack | api/web_app.py:133-150 | after a 200 answer the saved document can be read back through the history lookup as written, and its history entry shows the answered timestamp and post and the request's topic |
| WebGateway.GeneratedPostListedFirst | api/web_app.py:147-168 | a post saved after every post already in the directory heads the next history listing |
| HistoryStore.PostFilename | api/web_app.py:147 | the name matches `post_*.json` |
| HistoryStore.PostFilenamesByInstant | api/web_app.py:147 | two posts get the same name exactly when saved in the same second, and names sort in the order the posts were saved |
| HistoryStore.Save | api/web_app.py:148-150 | the file then holds the document, and no other file changes |
| HistoryStore.SameSecondOverwrites | api/web_app.py:147-150 | two saves in the same second leave only the later document |
| HistoryStore.MaxName | api/web_app.py:168 | the greatest name of a non-empty set |
| HistoryStore.NewestNames | api/web_app.py:168 | `sorted(reverse=True)[:10]`: the `limit` greatest names (all of them if fewer), greatest first |
| HistoryStore.NewestUnique | api/web_app.py:168 | there is only one such list |
| HistoryStore.NewestAgreeAt | api/web_app.py:168 | two such lists agree at every position |
| HistoryStore.NotBelow | api/web_app.py:168 | once two such lists agree before position k, neither sorts below the other at k |
| HistoryStore.EntryOf | api/web_app.py:172-179 | an entry is built exactly when the file is a JSON object whose `metadata`, if present, is an object; absent fields become null; a failure gives the exception's message |
| HistoryStore.HistoryOf | api/web_app.py:171-183 | the entries of the listed files in order, or the error of the first file that fails |
| HistoryStore.GetHistory | api/web_app.py:164-183 | lists the ten newest `post_*.json` names and answers their entries, or 500 with the first failure |
| HistoryStore.NewestSavedFirst | api/web_app.py:168 | a name greater than every other matching name heads the listing |
| HistoryStore.GetHistoryItem | api/web_app.py:185-196 | an existing JSON file is answered with its document; a missing file gives 500 "404: File not found" |
| HistoryStore.GetHistoryItemIntended | api/web_app.py:190-191 | a missing file is a 404; otherwise the same as the written lookup |
| HistoryStore.MissingItemIs500 | api/web_app.py:188-196 | the two lookups differ exactly on missing files: 500 against 404 |
| HistoryStore.DownloadFile | api/web_app.py:198-208 | a file is sent, under its own name, exactly when it exists; a missing file gives 500 "404: File not found" |
| HistoryStore.DownloadFileIntended | api/web_app.py:203-204 | a missing file is a 404; otherwise the same as the written download |
| HistoryStore.MissingDownloadIs500 | api/web_app.py:201-208 | both downloads fail on the same requests, the written one with 500 where the intended one gives 404 |
| EndToEnd.Agent1DraftText | agent1-local/app.py:71-73 | the orchestrator's draft extraction applied to Agent1's envelope gives exactly the tool's text |
| EndToEnd.OrchestratorTakesAgent1Failures | api/main.py:83-87 | the draft stage accepts Agent1's reply exactly when its text has at least 10 characters; every Agent1 failure is accepted as a draft starting with "Erro" |
| EndToEnd.GatewayTakesShortDrafts | api/web_app.py:91-92 | the gateway takes Agent1's text whatever its length, while the orchestrator rejects a text shorter than 10 characters |
| EndToEnd.OrchestratorReadsImprovedText | api/main.py:138-147 | Agent2's refined caption of at least 10 characters comes through the refine stage unchanged, a shorter one is rejected, and an Agent2 failure is reported with status 500 |
| EndToEnd.ImagePathTextShape | agent2-gemini/app.py:233 | the `image_path` sentence has at least 5 characters and no white space at either end |
| EndToEnd.PathReplyStage | api/main.py:181-187 | a trimmed `image_path` of at least 5 characters is what the image stage yields |
| EndToEnd.OrchestratorImagePromptIsPath | api/main.py:178-187 | whenever Agent2 succeeds, the image stage yields the sentence naming the file, never the description itself |
| EndToEnd.GatewayImagePromptIsPath | api/web_app.py:129-130 | the gateway reads the same sentence as its `image_prompt` |
| Stamps.Compact | api/web_app.py:147 | the stamp has 15 characters: 8 digits, '_', 6 digits |
| Stamps.CompactOrder | api/web_app.py:147 | stamps compare as strings the way the instants compare in time |
| Stamps.CompactInjective | api/web_app.py:147 | distinct instants, at one-second resolution, give distinct stamps |
| Stamps.StampedNameOrder | api/web_app.py:147 | a name built from a fixed prefix, the stamp and a fixed suffix identifies the instant and sorts like it |
| PyText.Strip | api/main.py:87 | `strip()` leaves no white space at either end, and is empty exactly for an all-white-space string |
| PyText.StripIsInfix | api/main.py:87 | `strip()` only removes white space around an infix of the string |
| PyText.StripIdempotent | api/main.py:87 | stripping twice is stripping once |
| PyText.StripUnchanged | api/main.py:87 | a string with no white space at either end is its own strip |
| PyText.StripKeepsPrefix | api/main.py:87 | stripping keeps a prefix that starts and ends with visible characters |
| PyText.RStripChar | api/main.py:40 | `rstrip('/')` drops exactly a run of trailing '/' characters |
| PyText.RemoveChar | agent2-gemini/app.py:162 | `replace('#', '')` leaves no '#' and changes nothing without one |
| PyText.RemoveCharMultiset | agent2-gemini/app.py:162 | every other character is kept as often as it occurs |
| PyText.RemoveCharConcat | agent2-gemini/app.py:162 | removal distributes over concatenation |
| PyText.Split | agent2-gemini/app.py:163 | `split(',')` gives at least one piece and no piece contains ',' |
| PyText.JoinSplit | agent2-gemini/app.py:163 | joining the pieces with ',' restores the string |
| PyText.SplitJoin | agent2-gemini/app.py:163 | splitting a join of ','-free pieces gives the pieces back |
| PyText.NatDigits | agent1-local/app.py:40 | `str(n)` of a natural number is its decimal digits, with no leading zero |
| PyText.PadDigitsOrder | api/web_app.py:147 | zero-padded numbers of one width sort as strings as they sort as numbers |
| PyText.StrLessTransitive | api/web_app.py:168 | Python's string order is transitive |
| PyText.StrLessTotal | api/web_app.py:168 | and total |

## Left out

- Transport and time. httpx, the 120.0 s and 5.0 s timeouts and
  `asyncio.sleep` are not modelled. A request ends in an abstract outcome, and
  a sleep is an event in the trace.
- Clock readings. `datetime.now()` is a parameter, and so is its ISO
  rendering. The gateway's document timestamp and its file name come from two
  separate readings, so they are two parameters that the model does not
  relate.
- Logging has no effect on control flow and is left out.
- Ollama and Gemini are parameters: each maps the prompt to its text or to
  the raised exception's message. The fixed instruction text of the prompts
  is reduced to the values interpolated into them. `prompt_used` is a
  `template` parameter.
- File I/O. `Path.glob`, `json.dump` and `json.load` act on a map from names
  to contents. A write either succeeds completely or fails with a message and
  leaves the directory unchanged; a partly written file is not modelled. A
  name that is a directory, and a name with "../" in it, are not modelled:
  names are plain keys.
- JSON and `str()`. JSON floats are not modelled, because numbers are
  integers. Python's `str()` of a list or dict is a `render` parameter.
  `None`, booleans, integers and strings are rendered exactly.
- Dates. Years below 1000 are not modelled: `Valid` requires four-digit
  years, the only ones `%Y` pads to equal width.
- Framework behaviour is not modelled:
  - FastAPI routing;
  - pydantic's 422 rejection of a request missing a required field;
  - CORS;
  - the static page served at `/`;
  - the bytes a `FileResponse` sends (a download is the name of the file
    sent);
  - the FastMCP decorator on Agent1's tool (see the FastMCP version line
    below).
- Response validation text. The gateway's response model rejects a value
  that is not a string with a message whose text is the `validationText`
  parameter.
- pydantic version. The model assumes pydantic v2 semantics for `str`
  fields: a value that is not a string is rejected. pydantic v1 would coerce
  integers and booleans to strings. `Agent2Service.Resolve`,
  `WebGateway.Finish` and `WebGateway.SavedThoughRejected` rely on this.
- FastMCP version. The model assumes that `@mcp.tool()` returns the plain
  function, so `api_generate_draft` (agent1-local/app.py:65-79) calls
  `generate_draft` directly. Under FastMCP releases where the decorator
  returns a tool object, that call would raise, and the endpoint would
  always take its except branch.
- `main()` in api/main.py is left out: it writes `workflow_result.json` and
  sets an exit code.
- Workflow.RunWorkflow: the "Erro inesperado" branch
  (api/main.py:279-281) is not modelled. Every stage client turns every
  exception into an `OrchestratorError`, so no other exception reaches the
  driver.
- Workflow.RunWorkflow: the stage clients are given to the driver as an
  `Env`, a function from stage and request to that stage's output, instead
  of as HTTP clients. `Workflow.Clients` builds the `Env` the HTTP stage
  clients make of the network's answers.
- Agent1Service.Envelope: the exception branch of `api_generate_draft` is
  modelled, but `ApiGenerateDraft` never takes it, because `generate_draft`
  never raises.
- WebGateway.GeneratePost: its contract relates each request to the previous
  stage's value through `AfterDraft` and `AfterImprove`, and through
  `AllAnswered` for runs in which every agent answers. Its own ensures state
  only the first request.
- PyText.Strip: its contract gives the shape of the result. The fact that it
  is an infix of the input surrounded by white space is stated separately in
  `PyText.StripIsInfix`.
- Concurrency between simultaneous gateway requests is not modelled; each
  request is one function application.
- test_gemini.py, check_models.py and list_models.py are manual scripts
  against the live Google API and are not part of this model.

## Findings

| source | as written | input that shows it | evidently intended | confidence | as-written member | corrected member |
|---|---|---|---|---|---|---|
| api/web_app.py:189-196 | the 404 for a missing file is raised inside the `try`, whose `except Exception` catches it and re-raises it as 500 with detail "404: File not found" | `GET /api/history/post_missing.json` on a directory without that file | a 404 "File not found" | not executed | HistoryStore.GetHistoryItem (with HistoryStore.MissingItemIs500) | HistoryStore.GetHistoryItemIntended |
| api/web_app.py:202-208 | the same pattern in the download endpoint: a missing file becomes 500 "404: File not found" | `GET /api/download/post_missing.json` on a directory without that file | a 404 "File not found" | not executed | HistoryStore.DownloadFile (with HistoryStore.MissingDownloadIs500) | HistoryStore.DownloadFileIntended |

=== FILE: agent1.dfy ===
/** Agent1, the local drafting service (agent1-local/app.py): it asks
    Ollama for a caption and always answers with a one-element `content`
    list, reporting its own failures as text beginning with "Erro" rather
    than as HTTP errors. */
module Agent1Service {
  import opened Results
  import opened PyText
  import opened JsonValues
  import opened Http

  /** The body of `POST /api/tools/generate_draft`. */
  datatype DraftRequest = DraftRequest(topic: string, style: string, tone: string)

  /** The request model's default: a missing tone is "neutro". */
  function NewDraftRequest(topic: string, style: string, tone: Option<string>): (r: DraftRequest)
    ensures r.topic == topic && r.style == style
    ensures tone.Some? ==> r.tone == tone.value
    ensures tone.None? ==> r.tone == "neutro"
  {
    DraftRequest(topic, style, tone.GetOr("neutro"))
  }

  /** The instruction sent to the model. */
  function DraftPrompt(topic: string, style: string, tone: string): string {
    "Crie uma caption para Instagram. Tópico: " + topic + ", Estilo: " + style
    + ", Tom: " + tone + ". Retorne apenas o texto."
  }

  /** The non-streaming generate request to the fixed Ollama endpoint and
      model. */
  function OllamaCall(topic: string, style: string, tone: string): Call {
    Post("http://ollama:11434/api/generate",
         JObj(map["model" := JStr("llama3.2:1b"),
                  "prompt" := JStr(DraftPrompt(topic, style, tone)),
                  "stream" := JBool(false)]))
  }

  /** The word every failure text starts with. */
  const Erro := "Erro"
  const EmptyReply := Erro + ": Resposta vazia do Ollama"
  const ConnectPrefix := Erro + ": Não conseguiu conectar ao Ollama - "
  const FailurePrefix := Erro + " ao conectar Ollama: "

  function StatusText(status: int): string {
    Erro + ": Status " + Decimal(status)
  }

  /** A reply body carries a usable caption: a JSON object whose `response`
      is a string that is not all white space. */
  predicate Usable(json: Json) {
    && json.JObj? && "response" in json.fields
    && json.fields["response"].JStr?
    && !Blank(json.fields["response"].s)
  }

  /** Ollama produced a usable caption in a 200 reply. */
  predicate Drafted(o: Outcome) {
    o.Reply? && o.status == 200 && o.body.Parsed? && Usable(o.body.json)
  }

  /** `response.json().get("response", "").strip()` and the emptiness test
      that follows, on a 200 reply's JSON body. A missing or blank
      `response` gives the empty-reply text; a body that is not an object,
      or a `response` that is not a string, raises inside the `try` and
      gives the generic failure text. */
  function CaptionOf(json: Json): (t: string)
    ensures Usable(json) ==> t == Strip(json.fields["response"].s) && t != []
    ensures !Usable(json) ==> StartsWith(t, Erro) && |t| >= 10
    ensures json.JObj? && ("response" !in json.fields
                           || (json.fields["response"].JStr? && Blank(json.fields["response"].s)))
            ==> t == EmptyReply
    // `.get` on a body that is not a dict, or `.strip` on a `response` that
    // is not a string, raises AttributeError; the handler reports its text
    ensures !json.JObj? ==> t == FailurePrefix + NoAttribute(json, "get")
    ensures json.JObj? && "response" in json.fields && !json.fields["response"].JStr?
            ==> t == FailurePrefix + NoAttribute(json.fields["response"], "strip")
  {
    match DictGet(json, "response", JStr(""))
    case Err(e) =>
      ErrorPrefixes(e, 0);
      FailurePrefix + e
    case Ok(v) =>
      ErrorPrefixes(NoAttribute(v, "strip"), 0);
      if !v.JStr? then FailurePrefix + NoAttribute(v, "strip")
      else if Strip(v.s) != [] then Strip(v.s)
      else EmptyReply
  }

  /** `generate_draft` as a function of the outcome of its Ollama request.
      It never raises: a usable caption comes back stripped, and every
      failure becomes a text of at least ten characters starting with
      "Erro" — the status text for a non-200 reply, the connection text for
      a refused connection, and the generic text for a timeout, any other
      transport failure and a body that is not JSON. */
  function GenerateDraft(o: Outcome): (t: string)
    ensures Drafted(o) ==> t == Strip(o.body.json.fields["response"].s) && t != []
    ensures !Drafted(o) ==> StartsWith(t, Erro) && |t| >= 10
    ensures o.Reply? && o.status != 200 ==> t == StatusText(o.status)
    ensures o.Reply? && o.status == 200 && o.body.Parsed? ==> t == CaptionOf(o.body.json)
    ensures o.ConnectFailed? ==> t == ConnectPrefix + o.reason
    ensures o.TimedOut? || o.OtherFailure? ==> t == FailurePrefix + o.reason
    ensures o.Reply? && o.status == 200 && o.body.Unparseable? ==> t == FailurePrefix + o.body.reason
  {
    match o
    case ConnectFailed(reason) =>
      ErrorPrefixes(reason, 0);
      ConnectPrefix + reason
    case TimedOut(reason) =>
      ErrorPrefixes(reason, 0);
      FailurePrefix + reason
    case OtherFailure(reason) =>
      ErrorPrefixes(reason, 0);
      FailurePrefix + reason
    case Reply(status, _, body) =>
      if status != 200 then
        ErrorPrefixes("", status);
        StatusText(status)
      else
        match body
        case Unparseable(reason) =>
          ErrorPrefixes(reason, 0);
          FailurePrefix + reason
        case Parsed(json) => CaptionOf(json)
  }

  /** Every failure text begins with "Erro" and has at least ten
      characters, whatever the reason or status it reports. */
  lemma ErrorPrefixes(reason: string, status: int)
    ensures StartsWith(ConnectPrefix + reason, Erro) && |ConnectPrefix + reason| >= 10
    ensures StartsWith(FailurePrefix + reason, Erro) && |FailurePrefix + reason| >= 10
    ensures StartsWith(StatusText(status), Erro) && |StatusText(status)| >= 10
    ensures StartsWith(EmptyReply, Erro) && |EmptyReply| >= 10
  {
    StartsWithAppend(ConnectPrefix, Erro, reason);
    StartsWithAppend(FailurePrefix, Erro, reason);
    StartsWithAppend(Erro + ": Status ", Erro, Decimal(status));
  }

  /** A status text has no white space at either end. */
  lemma StatusTextTrimmed(status: int)
    ensures !Blank(StatusText(status)) && Strip(StatusText(status)) == StatusText(status)
  {
    var s := StatusText(status);
    var d := Decimal(status);
    DecimalEndsInDigit(status);
    assert s == Erro + (": Status " + d);
    assert s[0] == 'E';
    assert s[|s| - 1] == d[|d| - 1];
    StripUnchanged(s);
  }

  /** A failure cannot be told apart from a caption: a non-200 status gives
      the same text as a successful reply whose caption is that text. */
  lemma StatusErrorLooksLikeDraft(status: int, text: string, body: Body, otherText: string)
    requires status != 200
    ensures GenerateDraft(Reply(status, text, body))
            == GenerateDraft(Reply(200, otherText, Parsed(Single("response", JStr(StatusText(status))))))
  {
    StatusTextTrimmed(status);
    TrimmedCaptionKept(StatusText(status), otherText);
  }

  /** A string `response` gives its stripped text, or the empty-reply
      text when nothing but white space is left. */
  lemma CaptionOfString(json: Json, s: string)
    requires json.JObj? && "response" in json.fields && json.fields["response"] == JStr(s)
    ensures CaptionOf(json) == if Strip(s) != [] then Strip(s) else EmptyReply
  {
    assert DictGet(json, "response", JStr("")) == Ok(JStr(s));
  }

  /** A 200 reply whose body is JSON is read by `CaptionOf`. */
  lemma ParsedReplyCaption(json: Json, text: string)
    ensures GenerateDraft(Reply(200, text, Parsed(json))) == CaptionOf(json)
  {
  }

  /** A caption with no white space at either end comes back as it is. */
  lemma TrimmedCaptionKept(s: string, text: string)
    requires s != [] && Strip(s) == s
    ensures GenerateDraft(Reply(200, text, Parsed(Single("response", JStr(s))))) == s
  {
    var json := Single("response", JStr(s));
    CaptionOfString(json, s);
    ParsedReplyCaption(json, text);
  }

  /** How the endpoint's call to the tool ends: the text it returns, or
      the message of an exception it raises. */
  datatype ToolOutcome = Returned(text: string) | Raised(message: string)

  /** `{"type": "text", "text": t}` */
  function TextItem(t: string): Json {
    JObj(map["type" := JStr("text"), "text" := JStr(t)])
  }

  /** The endpoint's answer: on success the tool's text in a one-element
      `content` list; on an exception the same shape with "Erro: " before
      the message, plus an `error` field holding the message. */
  function Envelope(tool: ToolOutcome): (body: Json)
    ensures body.JObj? && "content" in body.fields
    ensures body.fields["content"] == JArr([TextItem(
              match tool
              case Returned(t) => t
              case Raised(m) => "Erro: " + m)])
    ensures "error" in body.fields <==> tool.Raised?
    ensures tool.Raised? ==> body.fields["error"] == JStr(tool.message)
  {
    match tool
    case Returned(t) => Single("content", JArr([TextItem(t)]))
    case Raised(m) =>
      JObj(map["error" := JStr(m), "content" := JArr([TextItem("Erro: " + m)])])
  }

  /** `POST /api/tools/generate_draft`, calling `generate_draft` directly;
      `ollama` answers the request it sends. The reply is always the
      one-element envelope around the tool's text, so every failure reaches
      the caller as a 200 reply. */
  function ApiGenerateDraft(req: DraftRequest, ollama: Call -> Outcome): (r: Response)
    ensures r.status == 200
    ensures r.body == Envelope(Returned(GenerateDraft(ollama(OllamaCall(req.topic, req.style, req.tone)))))
    ensures "error" !in r.body.fields
  {
    Response(200, Envelope(Returned(GenerateDraft(ollama(OllamaCall(req.topic, req.style, req.tone))))))
  }

  /** `GET /`: the fixed health answer. */
  function Root(): Json {
    JObj(map["status" := JStr("ok"), "service" := JStr("Agent1-Llama-Local")])
  }
}

=== FILE: agent2.dfy ===
/** Agent2, the Gemini service (agent2-gemini/app.py): it refines a
    caption and derives hashtags, and it expands a post into a detailed
    image description, which it writes to a file under /app/outputs and
    answers with that file's path. Gemini is a parameter mapping each
    prompt to the text it returns or the exception it raises; the clock
    and the file write are parameters too. */
module Agent2Service {
  import opened Results
  import opened PyText
  import opened JsonValues
  import opened Http
  import opened Stamps

  /** An optional request field as pydantic sees it: left out, sent as
      `null`, or given. */
  datatype Field = Absent | Null | Given(value: string)

  /** The value an `Optional[str]` field with a default takes: the default
      when left out, `None` when sent as `null`. */
  function Resolve(f: Field, default: string): (v: Option<string>)
    ensures f.Absent? ==> v == Some(default)
    ensures f.Null? ==> v == None
    ensures f.Given? ==> v == Some(f.value)
  {
    match f
    case Absent => Some(default)
    case Null => None
    case Given(s) => Some(s)
  }

  /** How an optional value appears inside an f-string. */
  function Shown(v: Option<string>): string {
    match v
    case Some(s) => s
    case None => "None"
  }

  /** The prompts Agent2 sends, with the values interpolated into them;
      the surrounding instructions are fixed text. */
  datatype Prompt =
    | CaptionPrompt(draft: string, style: string, audience: string)
    | HashtagPrompt(caption: string)
    | ImageIdeaPrompt(idea: string, style: string)

  /** What `model.generate_content(p).text` yields: a text, or the message
      of the exception raised on the way. */
  datatype GeminiOutcome = Text(text: string) | Failure(message: string)

  const AgentId := "agent2-gemini"
  const ModelId := "models/gemini-2.5-flash"

  // ---------------- hashtags ----------------

  /** A tag as the service emits it: '#' followed by text without '#'. */
  predicate WellFormedTag(t: string) {
    |t| >= 1 && t[0] == '#' && '#' !in t[1..]
  }

  /** `f"#{tag.strip().replace('#', '')}"` */
  function TagOf(piece: string): (tag: string)
    ensures WellFormedTag(tag)
    ensures tag[1..] == RemoveChar(Strip(piece), '#')
  {
    ['#'] + RemoveChar(Strip(piece), '#')
  }

  /** The pieces the comprehension's filter `if tag.strip()` keeps, in
      their order: every piece that is not all white space, and only
      those. */
  function NonBlank(pieces: seq<string>): (kept: seq<string>)
    ensures |kept| <= |pieces|
    ensures forall k :: 0 <= k < |kept| ==> !Blank(kept[k])
    decreases |pieces|
  {
    if pieces == [] then []
    else if Blank(pieces[0]) then NonBlank(pieces[1..])
    else [pieces[0]] + NonBlank(pieces[1..])
  }

  /** The filter keeps exactly the pieces that are not blank. */
  lemma {:induction false} NonBlankMembers(pieces: seq<string>)
    ensures forall p :: p in NonBlank(pieces) <==> p in pieces && !Blank(p)
    decreases |pieces|
  {
    if pieces != [] {
      NonBlankMembers(pieces[1..]);
      KeptCons(pieces);
      assert pieces == [pieces[0]] + pieces[1..];
    }
  }

  /** The tags of the pieces that are not blank, in order: blank pieces
      are dropped and every other piece becomes its tag. */
  function Tags(pieces: seq<string>): (tags: seq<string>)
    ensures |tags| <= |pieces|
    ensures forall k :: 0 <= k < |tags| ==> WellFormedTag(tags[k])
    decreases |pieces|
  {
    if pieces == [] then []
    else if Strip(pieces[0]) == [] then Tags(pieces[1..])
    else [TagOf(pieces[0])] + Tags(pieces[1..])
  }

  /** For any pieces, blank or not, the tags are exactly the tags of the
      pieces the filter keeps, in order. */
  lemma {:induction false} TagsOfKept(pieces: seq<string>)
    ensures |Tags(pieces)| == |NonBlank(pieces)|
    ensures forall k :: 0 <= k < |Tags(pieces)| ==> Tags(pieces)[k] == TagOf(NonBlank(pieces)[k])
    decreases |pieces|
  {
    if pieces != [] {
      TagsOfKept(pieces[1..]);
      KeptCons(pieces);
      if !Blank(pieces[0]) {
        TagsCons(pieces);
        var kept := NonBlank(pieces);
        forall k | 0 <= k < |Tags(pieces)|
          ensures Tags(pieces)[k] == TagOf(kept[k])
        {
          if k > 0 {
            assert Tags(pieces)[k] == Tags(pieces[1..])[k - 1];
            assert kept[k] == NonBlank(pieces[1..])[k - 1];
          }
        }
      }
    }
  }

  /** One step of both recursions: a blank head is skipped by both, any
      other head is kept by the filter. */
  lemma KeptCons(pieces: seq<string>)
    requires pieces != []
    ensures Blank(pieces[0]) ==> NonBlank(pieces) == NonBlank(pieces[1..]) && Tags(pieces) == Tags(pieces[1..])
    ensures !Blank(pieces[0]) ==> NonBlank(pieces) == [pieces[0]] + NonBlank(pieces[1..])
  {
  }

  /** When no piece is blank, every piece yields its tag, in order. */
  lemma {:induction false} TagsOfNonBlank(pieces: seq<string>)
    requires forall k :: 0 <= k < |pieces| ==> !Blank(pieces[k])
    ensures |Tags(pieces)| == |pieces|
    ensures forall k :: 0 <= k < |pieces| ==> Tags(pieces)[k] == TagOf(pieces[k])
    decreases |pieces|
  {
    if pieces != [] {
      TagsOfNonBlank(pieces[1..]);
      TagsCons(pieces);
    }
  }

  lemma TagsCons(pieces: seq<string>)
    requires pieces != [] && !Blank(pieces[0])
    ensures Tags(pieces) == [TagOf(pieces[0])] + Tags(pieces[1..])
  {
  }

  /** Blank pieces leave no trace. */
  lemma BlankPieceDropped(pieces: seq<string>, blank: string)
    requires Blank(blank)
    ensures Tags([blank] + pieces) == Tags(pieces)
  {
    assert ([blank] + pieces)[1..] == pieces;
  }

  /** The hashtag list: the tags of the comma-separated pieces of `text`,
      at most the first ten. */
  function NormaliseHashtags(text: string): (tags: seq<string>)
    ensures |tags| <= 10
    ensures forall k :: 0 <= k < |tags| ==> WellFormedTag(tags[k])
    ensures var all := Tags(Split(text, ','));
            |tags| == (if |all| < 10 then |all| else 10) && tags == all[..|tags|]
  {
    var all := Tags(Split(text, ','));
    if |all| <= 10 then all else all[..10]
  }

  /** Gemini answering as instructed — up to ten words separated by
      commas, without '#' — yields exactly those words with a '#' in
      front. */
  lemma HashtagsOfCommaList(words: seq<string>)
    requires 1 <= |words| <= 10
    requires forall i :: 0 <= i < |words| ==>
               && words[i] != [] && ',' !in words[i] && '#' !in words[i]
               && !IsSpace(words[i][0]) && !IsSpace(words[i][|words[i]| - 1])
    ensures NormaliseHashtags(Join(words, ',')) == seq(|words|, i requires 0 <= i < |words| => ['#'] + words[i])
  {
    SplitJoin(words, ',');
    forall i | 0 <= i < |words|
      ensures !Blank(words[i]) && TagOf(words[i]) == ['#'] + words[i]
    {
      StripUnchanged(words[i]);
    }
    TagsOfNonBlank(words);
  }

  /** A tag keeps inner white space that stripping happened before '#' was
      removed: a word followed by " #" gives a tag ending in a space, as
      "a #" gives "#a ". */
  lemma TagMayEndInSpace(w: string)
    requires w != [] && '#' !in w && !IsSpace(w[0])
    ensures TagOf(w + " #") == ['#'] + w + " "
  {
    var p := w + " #";
    assert p[0] == w[0] && p[|p| - 1] == '#';
    StripUnchanged(p);
    TagOfTrimmed(p);
    assert " #" == [' '] + ['#'];
    RemoveCharConcat([' '], ['#'], '#');
    assert RemoveChar(" #", '#') == " " by {
      assert RemoveChar(['#'], '#') == [];
      assert RemoveChar([' '], '#') == [' '];
    }
    RemoveCharConcat(w, " #", '#');
    assert RemoveChar(p, '#') == w + " ";
  }

  /** A piece with no white space at either end loses only its '#'s. */
  lemma TagOfTrimmed(p: string)
    requires Strip(p) == p
    ensures TagOf(p) == ['#'] + RemoveChar(p, '#')
  {
  }

  /** A piece made only of '#'s becomes the bare tag "#". */
  lemma BareHashKept(p: string)
    requires p != [] && forall k :: 0 <= k < |p| ==> p[k] == '#'
    ensures TagOf(p) == "#"
  {
    assert p[0] == '#' && p[|p| - 1] == '#';
    StripUnchanged(p);
    RemoveCharAll(p, '#');
    TagOfTrimmed(p);
  }

  // ---------------- endpoints ----------------

  /** The reply to a raised `HTTPException`. */
  function Raise(status: int, detail: string): Response {
    ErrorResponse(HttpError(status, detail))
  }

  const CaptionErrorPrefix := "Erro ao melhorar caption: "
  const EmptyAnswer := "Gemini não retornou resposta"
  const ImageErrorPrefix := "Erro ao gerar descrição de imagem: "
  const EmptyImageAnswer := "Gemini não retornou uma descrição para a imagem."

  /** The body of `POST /improve`. */
  datatype CaptionRequest = CaptionRequest(draftText: string, style: Field, targetAudience: Field)

  /** A run of an endpoint: the prompts sent to Gemini, in order, and the
      reply. */
  datatype Exchange = Exchange(prompts: seq<Prompt>, response: Response)

  /** The JSON of an `ImproveCaptionResponse`. */
  function CaptionReply(improved: string, tags: seq<string>): Json {
    JObj(map["improved_text" := JStr(improved),
             "hashtags" := JArr(seq(|tags|, k requires 0 <= k < |tags| => JStr(tags[k]))),
             "agent" := JStr(AgentId),
             "model" := JStr(ModelId)])
  }

  /** The reply's `improved_text` is the caption it was built from. */
  lemma CaptionReplyText(improved: string, tags: seq<string>)
    ensures CaptionReply(improved, tags).JObj?
    ensures "improved_text" in CaptionReply(improved, tags).fields
    ensures CaptionReply(improved, tags).fields["improved_text"] == JStr(improved)
  {
  }

  /** `POST /improve`. It asks Gemini to refine the draft; an empty answer
      raises inside the `try` and so surfaces as 500 with the
      "Erro ao melhorar caption: 500: ..." detail. Otherwise the answer is
      stripped — and may then be empty — and Gemini is asked for hashtags
      for it, whose answer is normalised. Every failure is a 500 whose
      detail starts with "Erro ao melhorar caption: ". */
  function Improve(req: CaptionRequest, gemini: Prompt -> GeminiOutcome): (x: Exchange)
    ensures 1 <= |x.prompts| <= 2
    ensures x.prompts[0] == CaptionPrompt(req.draftText, Shown(Resolve(req.style, "casual")),
                                          Shown(Resolve(req.targetAudience, "público geral")))
    ensures x.response.status == 200 <==>
              && gemini(x.prompts[0]).Text? && gemini(x.prompts[0]).text != []
              && |x.prompts| == 2 && gemini(x.prompts[1]).Text?
    ensures |x.prompts| == 2 ==>
              && gemini(x.prompts[0]).Text? && gemini(x.prompts[0]).text != []
              && x.prompts[1] == HashtagPrompt(Strip(gemini(x.prompts[0]).text))
    ensures x.response.status == 200 ==>
              x.response.body == CaptionReply(Strip(gemini(x.prompts[0]).text),
                                              NormaliseHashtags(Strip(gemini(x.prompts[1]).text)))
    ensures x.response.status != 200 ==>
              && x.response.status == 500
              && x.response.body.JObj? && "detail" in x.response.body.fields
              && x.response.body.fields["detail"].JStr?
              && StartsWith(x.response.body.fields["detail"].s, CaptionErrorPrefix)
    ensures gemini(x.prompts[0]).Failure? ==>
              x.response == Raise(500, CaptionErrorPrefix + gemini(x.prompts[0]).message)
    ensures gemini(x.prompts[0]) == Text("") ==>
              x.response == Raise(500, CaptionErrorPrefix + ExceptionText(HttpError(500, EmptyAnswer)))
    ensures |x.prompts| == 2 && gemini(x.prompts[1]).Failure? ==>
              x.response == Raise(500, CaptionErrorPrefix + gemini(x.prompts[1]).message)
  {
    var p1 := CaptionPrompt(req.draftText, Shown(Resolve(req.style, "casual")),
                            Shown(Resolve(req.targetAudience, "público geral")));
    match gemini(p1)
    case Failure(m) => Exchange([p1], Raise(500, CaptionErrorPrefix + m))
    case Text(t) =>
      if t == [] then
        Exchange([p1], Raise(500, CaptionErrorPrefix
                                  + ExceptionText(HttpError(500, EmptyAnswer))))
      else
        var improved := Strip(t);
        var p2 := HashtagPrompt(improved);
        match gemini(p2)
        case Failure(m) => Exchange([p1, p2], Raise(500, CaptionErrorPrefix + m))
        case Text(h) =>
          Exchange([p1, p2], Response(200, CaptionReply(improved, NormaliseHashtags(Strip(h)))))
  }

  /** An empty first answer is reported with the detail of the inner
      exception, "500: Gemini não retornou resposta", folded into the outer
      one. */
  lemma EmptyCaptionAnswer(req: CaptionRequest, gemini: Prompt -> GeminiOutcome)
    requires gemini(Improve(req, gemini).prompts[0]) == Text("")
    ensures Improve(req, gemini).response == Raise(500, CaptionErrorPrefix + ("500: " + EmptyAnswer))
  {
    assert NatDigits(5) == "5";
    assert NatDigits(50) == "50";
    assert Decimal(500) + ": " == "500: ";
  }

  /** The body of `POST /generate-image`. */
  datatype ImageRequest = ImageRequest(prompt: string, style: Field)

  const OutputsDir := "/app/outputs"
  const FileHeader := "Prompt detalhado para gerar imagem:\n\n"

  /** The file an image description is written to at instant `now`. */
  function ImageFile(now: DateTime): string {
    OutputsDir + "/image_prompt_" + Compact(now) + ".txt"
  }

  /** The `image_path` field: a sentence around the file's path. */
  function ImagePathText(now: DateTime): string {
    "Descrição de imagem salva em: " + ImageFile(now)
  }

  /** A run of `/generate-image`: the prompt sent, the reply, and the file
      written (path and contents) when the write succeeded. */
  datatype ImageExchange = ImageExchange(prompt: Prompt, response: Response, written: Option<(string, string)>)

  /** `POST /generate-image`. `now` is the clock at the write, `writeError`
      the failure of opening or writing the file, if any, and `template`
      the full instruction text built around the prompt (it is echoed as
      `prompt_used`). On a non-empty answer the file holds the header and
      the answer unstripped, and the reply names the file; an empty answer
      or a failure is a 500 whose detail starts with
      "Erro ao gerar descrição de imagem: ". */
  function GenerateImage(req: ImageRequest, gemini: Prompt -> GeminiOutcome, now: DateTime,
                         writeError: Option<string>, template: Prompt -> string): (x: ImageExchange)
    ensures x.prompt == ImageIdeaPrompt(req.prompt, Shown(Resolve(req.style, "realistic")))
    ensures x.response.status == 200 <==>
              gemini(x.prompt).Text? && gemini(x.prompt).text != [] && writeError.None?
    ensures x.written.Some? <==> x.response.status == 200
    ensures x.written.Some? ==>
              x.written.value == (ImageFile(now), FileHeader + gemini(x.prompt).text)
    ensures x.response.status == 200 ==>
              x.response.body == JObj(map["image_path" := JStr(ImagePathText(now)),
                                           "prompt_used" := JStr(template(x.prompt)),
                                           "agent" := JStr(AgentId),
                                           "model" := JStr(ModelId)])
    ensures x.response.status != 200 ==>
              && x.response.status == 500
              && x.response.body.JObj? && "detail" in x.response.body.fields
              && x.response.body.fields["detail"].JStr?
              && StartsWith(x.response.body.fields["detail"].s, ImageErrorPrefix)
    ensures gemini(x.prompt).Failure? ==>
              x.response == Raise(500, ImageErrorPrefix + gemini(x.prompt).message)
    ensures gemini(x.prompt) == Text("") ==>
              x.response == Raise(500, ImageErrorPrefix + ExceptionText(HttpError(500, EmptyImageAnswer)))
    ensures gemini(x.prompt).Text? && gemini(x.prompt).text != [] && writeError.Some? ==>
              x.response == Raise(500, ImageErrorPrefix + writeError.value)
  {
    var p := ImageIdeaPrompt(req.prompt, Shown(Resolve(req.style, "realistic")));
    match gemini(p)
    case Failure(m) => ImageExchange(p, Raise(500, ImageErrorPrefix + m), None)
    case Text(t) =>
      if t == [] then
        ImageExchange(p, Raise(500, ImageErrorPrefix + ExceptionText(
                                 HttpError(500, EmptyImageAnswer))), None)
      else
        var written := Some((ImageFile(now), FileHeader + t));
        match writeError
        case Some(m) => ImageExchange(p, Raise(500, ImageErrorPrefix + m), None)
        case None =>
          ImageExchange(p, Response(200, JObj(map["image_path" := JStr(ImagePathText(now)),
                                                  "prompt_used" := JStr(template(p)),
                                                  "agent" := JStr(AgentId),
                                                  "model" := JStr(ModelId)])), written)
  }

  /** Two descriptions written in distinct seconds go to distinct files,
      and the file names sort in the order the descriptions were written;
      two in the same second share a file, the later overwriting the
      earlier. */
  lemma ImageFilesByInstant(a: DateTime, b: DateTime)
    requires Valid(a) && Valid(b)
    ensures ImageFile(a) == ImageFile(b) <==> a == b
    ensures StrLess(ImageFile(a), ImageFile(b)) <==> Before(a, b)
  {
    StampedNameOrder(OutputsDir + "/image_prompt_", ".txt", a, b);
  }

  // ---------------- service state ----------------

  const Placeholder := "your_api_key_here"
  const KeyMessage := "GOOGLE_API_KEY não configurada corretamente"

  /** The service starts only when GOOGLE_API_KEY is set and not empty;
      otherwise loading the module raises. */
  predicate Starts(key: Option<string>) {
    key.Some? && key.value != []
  }

  /** `GET /health`. A missing, empty or placeholder key raises 503 inside
      the `try`, which the handler re-raises as 503 with the first
      exception's text folded in. */
  function Health(key: Option<string>): (r: Response)
    ensures r.status == 200 <==> Starts(key) && key.value != Placeholder
    ensures r.status != 200 ==>
              r == Raise(503, "Erro na configuração: " + ExceptionText(HttpError(503, KeyMessage)))
  {
    if key.None? || key.value == [] || key.value == Placeholder then
      Raise(503, "Erro na configuração: " + ExceptionText(HttpError(503, KeyMessage)))
    else
      Response(200, JObj(map["status" := JStr("healthy"), "gemini_api" := JStr("configured")]))
  }

  /** Once the service is running, the health check fails only for the
      placeholder key. */
  lemma RunningServiceRejectsOnlyPlaceholder(key: Option<string>)
    requires Starts(key)
    ensures Health(key).status == 503 <==> key == Some(Placeholder)
  {
  }

  /** `GET /`: the fixed description, answered whatever the key. */
  function Root(): Json {
    JObj(map["agent" := JStr(AgentId),
             "models" := JObj(map["text" := JStr(ModelId), "image_description" := JStr(ModelId)]),
             "status" := JStr("online")])
  }
}

=== FILE: clients.dfy ===
/** The orchestrator's HTTP clients for the two agents (api/main.py,
    `Agent1Client` and `Agent2Client`): URL normalisation, the readiness
    probe, and the three stage calls with their payload extraction,
    minimum-length gate and error wrapping. Each stage call is a function
    of the one HTTP outcome it observes. */
module StageClients {
  import opened Results
  import opened PyText
  import opened JsonValues
  import opened Http

  /** The single exception type of the orchestrator; it carries only a
      message. */
  datatype OrchestratorError = OrchestratorError(message: string)

  /** A client: the agent's base URL, stored without trailing '/'. */
  datatype Client = Client(baseUrl: string)

  /** The constructor: `base_url.rstrip('/')`. */
  function NewClient(url: string): (c: Client)
    ensures StartsWith(url, c.baseUrl)
    ensures forall k :: |c.baseUrl| <= k < |url| ==> url[k] == '/'
    ensures !EndsWith(c.baseUrl, "/")
  {
    Client(RStripChar(url, '/'))
  }

  /** Normalising an already normalised URL changes nothing. */
  lemma NewClientIdempotent(url: string)
    ensures NewClient(NewClient(url).baseUrl) == NewClient(url)
  {
  }

  /** The readiness probe `GET {base}/`. */
  function HealthCall(c: Client): Call {
    Get(c.baseUrl + "/")
  }

  /** `health_check`: healthy exactly when the probe got a reply with status
      200. Every transport failure counts as not ready; nothing is raised. */
  function HealthCheck(o: Outcome): (healthy: bool)
    ensures healthy <==> o.Reply? && o.status == 200
  {
    match o
    case Reply(status, _, _) => status == 200
    case _ => false
  }

  /** The three calls of the pipeline. */
  datatype Stage = Draft | Improve | ImagePrompt

  /** The agent a stage talks to, as its messages name it. */
  function AgentName(stage: Stage): string {
    if stage == Draft then "Agent1" else "Agent2"
  }

  /** The shortest payload, measured before stripping, a stage accepts. */
  function MinLength(stage: Stage): nat {
    match stage
    case Draft => 10
    case Improve => 10
    case ImagePrompt => 5
  }

  function EmptyMessage(stage: Stage): string {
    match stage
    case Draft => "Agent1 retornou rascunho vazio"
    case Improve => "Agent2 retornou conteúdo vazio"
    case ImagePrompt => "Agent2 retornou prompt vazio"
  }

  /** HTTP_TIMEOUT is 120.0 seconds; the orchestrator never passes another. */
  function TimeoutMessage(stage: Stage): string {
    match stage
    case Draft => "Agent1 timeout após 120.0s"
    case Improve => "Agent2 timeout após 120.0s"
    case ImagePrompt => "Agent2 timeout ao gerar prompt"
  }

  function ConnectPrefix(stage: Stage): string {
    "Não conseguiu conectar a " + AgentName(stage) + ": "
  }

  /** The prefix the blanket `except Exception` handler puts in front of
      `str(e)`. */
  function WrapPrefix(stage: Stage): string {
    match stage
    case Draft => "Erro ao chamar Agent1: "
    case Improve => "Erro ao chamar Agent2 improve_content: "
    case ImagePrompt => "Erro ao chamar Agent2: "
  }

  function StatusMessage(stage: Stage, status: int, text: string): string {
    AgentName(stage) + " retornou status " + Decimal(status) + ": " + text
  }

  function DraftCall(c: Client, topic: string, style: string, tone: string): Call {
    Post(c.baseUrl + "/api/tools/generate_draft",
         JObj(map["topic" := JStr(topic), "style" := JStr(style), "tone" := JStr(tone)]))
  }

  function ImproveCall(c: Client, draftText: string, targetAudience: string): Call {
    Post(c.baseUrl + "/improve",
         JObj(map["draft_text" := JStr(draftText), "target_audience" := JStr(targetAudience)]))
  }

  function ImagePromptCall(c: Client, postText: string): Call {
    Post(c.baseUrl + "/generate-image",
         JObj(map["prompt" := JStr(postText), "style" := JStr("realistic")]))
  }

  /** The draft as `generate_draft` reads it out of the reply: the first
      element's "text" of a non-empty `content` list, the "text" of a
      `content` dict, otherwise `str()` of the content or of the whole
      body. An error is the message of the Python exception. */
  function DraftText(result: Json, render: Json -> string): (r: Result<Json, string>)
    // not a dict, or no "content": the whole body, rendered
    ensures !(result.JObj? && "content" in result.fields) ==> r == Ok(JStr(PyStr(result, render)))
    ensures result.JObj? && "content" in result.fields ==>
              var content := result.fields["content"];
              var first := if content.JArr? && content.items != [] then content.items[0] else content;
              // a non-empty list or a dict: the "text" of its first element or of itself, "" when absent
              && ((content.JArr? && content.items != []) || content.JObj? ==>
                    if first.JObj? then r == Ok(if "text" in first.fields then first.fields["text"] else JStr(""))
                    else r == Err(NoAttribute(first, "get")))
              // a string is taken as it is
              && (content.JStr? ==> r == Ok(content))
              // anything else, an empty list included, is rendered with `str()`
              && (!content.JObj? && !(content.JArr? && content.items != []) ==> r == Ok(JStr(PyStr(content, render))))
  {
    if result.JObj? && "content" in result.fields then
      var content := result.fields["content"];
      if content.JArr? && |content.items| > 0 then DictGet(content.items[0], "text", JStr(""))
      else if content.JObj? then DictGet(content, "text", JStr(""))
      else Ok(JStr(PyStr(content, render)))
    else Ok(JStr(PyStr(result, render)))
  }

  /** The field a stage reads out of a reply body, before the length check. */
  function Payload(stage: Stage, result: Json, render: Json -> string): Result<Json, string> {
    match stage
    case Draft => DraftText(result, render)
    case Improve => DictGet(result, "improved_text", JStr(""))
    case ImagePrompt => DictGet(result, "image_path", JStr(""))
  }

  /** `if not v or len(v) < minLength: raise ...` followed by
      `return v.strip()`, with Python's semantics for every kind of value:
      only a string of at least `minLength` characters gets through, and
      what gets through is stripped afterwards. */
  function LengthGate(v: Json, minLength: nat, empty: string): (r: Result<string, string>)
    ensures r.Ok? <==> v.JStr? && v.s != [] && |v.s| >= minLength
    ensures r.Ok? ==> r.value == Strip(v.s)
    ensures v.JStr? && (v.s == [] || |v.s| < minLength) ==> r == Err(empty)
    ensures !Truthy(v) ==> r == Err(empty)
    ensures Truthy(v) && PyLen(v).None? ==> r == Err(NoLen(v))
  {
    if !Truthy(v) then Err(empty)
    else
      match PyLen(v)
      case None => Err(NoLen(v))
      case Some(n) =>
        if n < minLength then Err(empty)
        else if v.JStr? then Ok(Strip(v.s))
        else Err(NoAttribute(v, "strip"))
  }

  /** The text a stage extracts from a reply body it accepts, if any. */
  predicate Accepts(stage: Stage, result: Json, render: Json -> string) {
    var p := Payload(stage, result, render);
    p.Ok? && p.value.JStr? && |p.value.s| >= MinLength(stage)
  }

  /** One stage call (`generate_draft`, `improve_content`,
      `generate_image_prompt`) as a function of the outcome of its request.
      It succeeds exactly on a 200 reply with a JSON body whose payload is a
      long enough string, and then returns that string stripped; a non-200
      status fails whatever the body. A timeout gives the stage's timeout
      message and a refused connection its connection prefix; every other
      failure, including the non-200 status and the too-short payload that
      the stage raises inside its own `try`, gets the blanket-handler
      prefix. */
  function CallStage(stage: Stage, o: Outcome, render: Json -> string): (r: Result<string, OrchestratorError>)
    ensures r.Ok? <==> o.Reply? && o.status == 200 && o.body.Parsed? && Accepts(stage, o.body.json, render)
    ensures r.Ok? ==> r.value == Strip(Payload(stage, o.body.json, render).value.s)
    ensures o.Reply? && o.status != 200 ==>
              r == Err(OrchestratorError(WrapPrefix(stage) + StatusMessage(stage, o.status, o.text)))
    ensures o.TimedOut? ==> r == Err(OrchestratorError(TimeoutMessage(stage)))
    ensures o.ConnectFailed? ==> r == Err(OrchestratorError(ConnectPrefix(stage) + o.reason))
    ensures o.OtherFailure? ==> r == Err(OrchestratorError(WrapPrefix(stage) + o.reason))
    // inside the `try`, every exception on a 200 reply is re-wrapped by the blanket handler
    ensures o.Reply? && o.status == 200 && o.body.Unparseable? ==>
              r == Err(OrchestratorError(WrapPrefix(stage) + o.body.reason))
    ensures o.Reply? && o.status == 200 && o.body.Parsed? ==>
              var p := Payload(stage, o.body.json, render);
              && (p.Err? ==> r == Err(OrchestratorError(WrapPrefix(stage) + p.error)))
              && (p.Ok? && p.value.JStr? && |p.value.s| < MinLength(stage) ==>
                    r == Err(OrchestratorError(WrapPrefix(stage) + EmptyMessage(stage))))
              && (p.Ok? && LengthGate(p.value, MinLength(stage), EmptyMessage(stage)).Err? ==>
                    r == Err(OrchestratorError(WrapPrefix(stage)
                                               + LengthGate(p.value, MinLength(stage), EmptyMessage(stage)).error)))
    ensures r.Err? ==> || r.error.message == TimeoutMessage(stage)
                       || StartsWith(r.error.message, ConnectPrefix(stage))
                       || StartsWith(r.error.message, WrapPrefix(stage))
  {
    match o
    case TimedOut(_) => Err(OrchestratorError(TimeoutMessage(stage)))
    case ConnectFailed(reason) => Err(OrchestratorError(ConnectPrefix(stage) + reason))
    case OtherFailure(reason) => Err(OrchestratorError(WrapPrefix(stage) + reason))
    case Reply(status, text, body) =>
      var inner: Result<string, string> :=
        if status != 200 then Err(StatusMessage(stage, status, text))
        else
          match body
          case Unparseable(reason) => Err(reason)
          case Parsed(result) =>
            match Payload(stage, result, render)
            case Err(e) => Err(e)
            case Ok(v) => LengthGate(v, MinLength(stage), EmptyMessage(stage));
      match inner
      case Ok(t) => Ok(t)
      case Err(e) => Err(OrchestratorError(WrapPrefix(stage) + e))
  }

  /** The draft stage accepts both envelope shapes: a `content` list whose
      first element carries "text", and a `content` dict carrying "text". */
  lemma DraftEnvelopeShapes(t: string, extra: seq<Json>, status: int, text: string, render: Json -> string)
    ensures var listShape := Single("content", JArr([Single("text", JStr(t))] + extra));
            var dictShape := Single("content", Single("text", JStr(t)));
            && CallStage(Draft, Reply(status, text, Parsed(listShape)), render)
               == CallStage(Draft, Reply(status, text, Parsed(dictShape)), render)
            && (status == 200 && |t| >= 10 ==>
                  CallStage(Draft, Reply(status, text, Parsed(dictShape)), render) == Ok(Strip(t)))
  {
    var listShape := Single("content", JArr([Single("text", JStr(t))] + extra));
    assert listShape.fields["content"].items[0] == Single("text", JStr(t));
  }

  /** The draft gate sits exactly at 10 characters, counted before
      stripping. */
  lemma DraftLengthBoundary(ten: string, nine: string, text: string, render: Json -> string)
    requires |ten| == 10 && |nine| == 9
    ensures CallStage(Draft, Reply(200, text, Parsed(Single("content", Single("text", JStr(ten))))), render).Ok?
    ensures CallStage(Draft, Reply(200, text, Parsed(Single("content", Single("text", JStr(nine))))), render)
            == Err(OrchestratorError(WrapPrefix(Draft) + EmptyMessage(Draft)))
  {
    var b10 := Single("content", Single("text", JStr(ten)));
    var b9 := Single("content", Single("text", JStr(nine)));
    assert DraftText(b10, render) == Ok(JStr(ten));
    assert DraftText(b9, render) == Ok(JStr(nine));
    assert LengthGate(JStr(nine), 10, EmptyMessage(Draft)) == Err(EmptyMessage(Draft));
  }

  /** Because the length is measured before stripping, an accepted draft can
      be a single character: nine or more blanks followed by one visible
      character pass the gate and strip down to that character. */
  lemma AcceptedDraftMayBeShort(w: string, c: char, text: string, render: Json -> string)
    requires Blank(w) && |w| >= 9 && !IsSpace(c)
    ensures CallStage(Draft, Reply(200, text, Parsed(Single("content", Single("text", JStr(w + [c]))))), render)
            == Ok([c])
  {
    var body := Single("content", Single("text", JStr(w + [c])));
    assert DraftText(body, render) == Ok(JStr(w + [c]));
    StripLeadingBlank(w, c);
  }

  /** A non-200 reply is rejected before its body is looked at. */
  lemma StatusCheckedBeforeBody(stage: Stage, status: int, text: string, b1: Body, b2: Body, render: Json -> string)
    requires status != 200
    ensures CallStage(stage, Reply(status, text, b1), render) == CallStage(stage, Reply(status, text, b2), render)
    ensures CallStage(stage, Reply(status, text, b1), render).Err?
  {
  }

  /** The refinement stage on a 200 reply whose `improved_text` is a
      string: it yields the string stripped when it has at least ten
      characters and rejects it as empty otherwise. */
  lemma ImprovedTextGate(body: Json, s: string, text: string, render: Json -> string)
    requires body.JObj? && "improved_text" in body.fields && body.fields["improved_text"] == JStr(s)
    ensures CallStage(Improve, Reply(200, text, Parsed(body)), render)
            == if |s| >= 10 then Ok(Strip(s)) else Err(OrchestratorError(WrapPrefix(Improve) + EmptyMessage(Improve)))
  {
    assert Payload(Improve, body, render) == Ok(JStr(s));
  }

  /** The image stage on a 200 reply whose `image_path` is a string: it
      yields the string stripped when it has at least five characters and
      rejects it as an empty prompt otherwise. */
  lemma ImagePathGate(body: Json, s: string, text: string, render: Json -> string)
    requires body.JObj? && "image_path" in body.fields && body.fields["image_path"] == JStr(s)
    ensures CallStage(ImagePrompt, Reply(200, text, Parsed(body)), render)
            == if |s| >= 5 then Ok(Strip(s)) else Err(OrchestratorError(WrapPrefix(ImagePrompt) + EmptyMessage(ImagePrompt)))
  {
    assert Payload(ImagePrompt, body, render) == Ok(JStr(s));
  }
}

=== FILE: endtoend.dfy ===
/** How the services fit together: what the orchestrator's stage clients
    and the web gateway make of the replies Agent1 and Agent2 actually
    send. */
module EndToEnd {
  import opened Results
  import opened PyText
  import opened JsonValues
  import opened Http
  import opened Stamps
  import opened StageClients
  import opened Agent1Service
  import opened Agent2Service
  import opened WebGateway

  /** The reply Agent1 sends for a draft request, as a client receives it;
      `text` is its serialised body. */
  function Agent1Reply(req: DraftRequest, ollama: Call -> Outcome, text: string): Outcome {
    Received(ApiGenerateDraft(req, ollama), text)
  }

  /** Agent1's text as the draft stage reads it out of the envelope. */
  lemma Agent1DraftText(req: DraftRequest, ollama: Call -> Outcome, render: Json -> string)
    ensures DraftText(ApiGenerateDraft(req, ollama).body, render)
            == Ok(JStr(GenerateDraft(ollama(OllamaCall(req.topic, req.style, req.tone)))))
  {
    var t := GenerateDraft(ollama(OllamaCall(req.topic, req.style, req.tone)));
    var body := ApiGenerateDraft(req, ollama).body;
    assert body.fields["content"].items[0] == TextItem(t);
  }

  /** The orchestrator's draft stage accepts Agent1's reply exactly when
      its text has at least ten characters, and then yields that text. In
      particular every Agent1 failure is accepted as a draft: the stage
      yields a text starting with "Erro" and the run goes on. */
  lemma OrchestratorTakesAgent1Failures(req: DraftRequest, ollama: Call -> Outcome, text: string,
                                        render: Json -> string)
    ensures var o := ollama(OllamaCall(req.topic, req.style, req.tone));
            var r := CallStage(Draft, Agent1Reply(req, ollama, text), render);
            && (r.Ok? <==> |GenerateDraft(o)| >= 10)
            && (r.Ok? ==> r.value == Strip(GenerateDraft(o)))
            && (!Drafted(o) ==> r.Ok? && StartsWith(r.value, Erro))
  {
    var o := ollama(OllamaCall(req.topic, req.style, req.tone));
    var t := GenerateDraft(o);
    Agent1DraftText(req, ollama, render);
    if !Drafted(o) {
      assert t[..|Erro|] == Erro;
      StripKeepsPrefix(t, Erro);
    }
  }

  /** The gateway takes Agent1's text as it is, whatever its length: a
      caption of fewer than ten characters, which the orchestrator rejects,
      reaches the gateway's refinement request unchanged. */
  lemma GatewayTakesShortDrafts(req: DraftRequest, ollama: Call -> Outcome, text: string,
                                render: Json -> string)
    ensures var t := GenerateDraft(ollama(OllamaCall(req.topic, req.style, req.tone)));
            && StageBody(Agent1Reply(req, ollama, text), StageLabel(0)) == Ok(ApiGenerateDraft(req, ollama).body)
            && WebDraft(ApiGenerateDraft(req, ollama).body) == Ok(JStr(t))
            && (|t| < 10 ==> CallStage(Draft, Agent1Reply(req, ollama, text), render)
                             == Err(OrchestratorError(WrapPrefix(Draft) + EmptyMessage(Draft))))
  {
    var t := GenerateDraft(ollama(OllamaCall(req.topic, req.style, req.tone)));
    var body := ApiGenerateDraft(req, ollama).body;
    assert body.fields["content"].items[0] == TextItem(t);
    Agent1DraftText(req, ollama, render);
  }

  /** The refinement stage of the orchestrator on Agent2's `/improve`
      reply: a refined caption of at least ten characters comes through
      unchanged (it was already stripped), a shorter one is rejected as
      empty, and an Agent2 failure is reported with its 500 status. */
  lemma OrchestratorReadsImprovedText(req: CaptionRequest, gemini: Prompt -> GeminiOutcome, text: string,
                                      render: Json -> string)
    ensures var x := Agent2Service.Improve(req, gemini);
            var r := CallStage(StageClients.Improve, Received(x.response, text), render);
            && (x.response.status == 200 ==>
                  var improved := Strip(gemini(x.prompts[0]).text);
                  && (|improved| >= 10 ==> r == Ok(improved))
                  && (|improved| < 10 ==> r == Err(OrchestratorError(WrapPrefix(StageClients.Improve)
                                                                    + EmptyMessage(StageClients.Improve)))))
            && (x.response.status != 200 ==>
                  r == Err(OrchestratorError(WrapPrefix(StageClients.Improve)
                                             + StatusMessage(StageClients.Improve, 500, text))))
  {
    var x := Agent2Service.Improve(req, gemini);
    if x.response.status == 200 {
      var improved := Strip(gemini(x.prompts[0]).text);
      StripIdempotent(gemini(x.prompts[0]).text);
      CaptionReplyText(improved, NormaliseHashtags(Strip(gemini(x.prompts[1]).text)));
      ImprovedTextGate(x.response.body, improved, text, render);
    }
  }

  /** The sentence naming the image file has no white space at either end
      and is long enough for the image stage. */
  lemma ImagePathTextShape(now: DateTime)
    ensures var s := ImagePathText(now);
            |s| >= 5 && !IsSpace(s[0]) && !IsSpace(s[|s| - 1])
  {
    var s := ImagePathText(now);
    var head := "Descrição de imagem salva em: ";
    var tail := OutputsDir + "/image_prompt_" + Compact(now) + ".txt";
    assert s == head + tail;
    assert s[0] == head[0] == 'D';
    assert s[|s| - 1] == tail[|tail| - 1] == 't';
  }

  /** The image stage on a 200 reply whose `image_path` is a string with
      no white space at either end and at least five characters yields
      that string. */
  lemma PathReplyStage(body: Json, s: string, text: string, render: Json -> string)
    requires body.JObj? && "image_path" in body.fields && body.fields["image_path"] == JStr(s)
    requires |s| >= 5 && !IsSpace(s[0]) && !IsSpace(s[|s| - 1])
    ensures CallStage(ImagePrompt, Reply(200, text, Parsed(body)), render) == Ok(s)
  {
    assert Payload(ImagePrompt, body, render) == Ok(JStr(s));
    StripUnchanged(s);
  }

  /** The image stage of the orchestrator on Agent2's `/generate-image`
      reply: whenever Agent2 succeeds the stage yields the sentence naming
      the file, never the description itself. */
  lemma OrchestratorImagePromptIsPath(req: ImageRequest, gemini: Prompt -> GeminiOutcome, now: DateTime,
                                      writeError: Option<string>, template: Prompt -> string, text: string,
                                      render: Json -> string)
    requires GenerateImage(req, gemini, now, writeError, template).response.status == 200
    ensures CallStage(ImagePrompt, Received(GenerateImage(req, gemini, now, writeError, template).response, text), render)
            == Ok(ImagePathText(now))
  {
    var x := GenerateImage(req, gemini, now, writeError, template);
    ImagePathTextShape(now);
    PathReplyStage(x.response.body, ImagePathText(now), text, render);
  }

  /** The gateway saves the same sentence as its `image_prompt`. */
  lemma GatewayImagePromptIsPath(req: ImageRequest, gemini: Prompt -> GeminiOutcome, now: DateTime,
                                 writeError: Option<string>, template: Prompt -> string, text: string)
    requires GenerateImage(req, gemini, now, writeError, template).response.status == 200
    ensures var reply := Received(GenerateImage(req, gemini, now, writeError, template).response, text);
            && StageBody(reply, StageLabel(2)).Ok?
            && DictGet(StageBody(reply, StageLabel(2)).value, "image_path", JStr("")) == Ok(JStr(ImagePathText(now)))
  {
  }
}

=== FILE: gateway.dfy ===
/** The web gateway's `POST /api/generate-post` (api/web_app.py): it runs
    the three agent calls itself, without the orchestrator's length checks,
    saves the result in the history directory and answers with it. */
module WebGateway {
  import opened Results
  import opened PyText
  import opened JsonValues
  import opened Http
  import opened Stamps
  import opened HistoryStore
  import opened Workflow

  /** The agents' base URLs (`AGENT1_URL`, `AGENT2_URL`). */
  datatype Config = Config(agent1Url: string, agent2Url: string)

  /** The URLs used when the environment sets none. */
  const DefaultConfig := Config("http://agent1-local:8001", "http://agent2-gemini:8002")

  const TimeoutDetail := "Agents timeout - took too long"
  const ConnectDetail := "Cannot connect to agents: "
  const IndexErrorText := "list index out of range"

  /** The three requests, each built from the previous stage's value. */
  function WebDraftCall(cfg: Config, req: Request): Call {
    Post(cfg.agent1Url + "/api/tools/generate_draft",
         JObj(map["topic" := JStr(req.topic), "style" := JStr(req.style), "tone" := JStr(req.tone)]))
  }

  function WebImproveCall(cfg: Config, req: Request, draft: Json): Call {
    Post(cfg.agent2Url + "/improve",
         JObj(map["draft_text" := draft, "target_audience" := JStr(req.targetAudience)]))
  }

  function WebImageCall(cfg: Config, finalPost: Json): Call {
    Post(cfg.agent2Url + "/generate-image",
         JObj(map["prompt" := finalPost, "style" := JStr("realistic")]))
  }

  /** The label each stage puts before a non-200 reply's text. */
  function StageLabel(i: nat): string {
    if i == 0 then "Agent1 error: " else if i == 1 then "Agent2 error: " else "Agent2 image error: "
  }

  /** The error the endpoint answers with when a stage's request does not
      yield a JSON body: a timeout is 504, a refused connection 503; a
      non-200 reply raises a 500 `HTTPException` that the blanket handler
      catches and re-raises as 500 with the first one's text as detail; any
      other failure is 500 with the exception's message. */
  function StageBody(o: Outcome, tag: string): (r: Result<Json, HttpError>)
    ensures r.Ok? <==> o.Reply? && o.status == 200 && o.body.Parsed?
    ensures r.Ok? ==> r.value == o.body.json
    ensures o.TimedOut? ==> r == Err(HttpError(504, TimeoutDetail))
    ensures o.ConnectFailed? ==> r == Err(HttpError(503, ConnectDetail + o.reason))
    ensures o.Reply? && o.status != 200 ==>
              r == Err(HttpError(500, ExceptionText(HttpError(500, tag + o.text))))
    ensures o.OtherFailure? ==> r == Err(HttpError(500, o.reason))
    ensures o.Reply? && o.status == 200 && o.body.Unparseable? ==> r == Err(HttpError(500, o.body.reason))
    ensures r.Err? && !o.TimedOut? && !o.ConnectFailed? ==> r.error.status == 500
  {
    match o
    case TimedOut(_) => Err(HttpError(504, TimeoutDetail))
    case ConnectFailed(reason) => Err(HttpError(503, ConnectDetail + reason))
    case OtherFailure(reason) => Err(HttpError(500, reason))
    case Reply(status, text, body) =>
      if status != 200 then Err(HttpError(500, ExceptionText(HttpError(500, tag + text))))
      else
        match body
        case Unparseable(reason) => Err(HttpError(500, reason))
        case Parsed(json) => Ok(json)
  }

  /** The draft read out of Agent1's reply: from the first element of a
      `content` list (an empty list raises `IndexError`), otherwise from
      `content` as a dict, an absent `content` giving "". The value is
      whatever JSON "text" holds. */
  function WebDraft(result: Json): (r: Result<Json, string>)
    ensures !result.JObj? ==> r == Err(NoAttribute(result, "get"))
    ensures result.JObj? && "content" !in result.fields ==> r == Ok(JStr(""))
    ensures result.JObj? && "content" in result.fields && result.fields["content"] == JArr([]) ==>
              r == Err(IndexErrorText)
    ensures result.JObj? && "content" in result.fields && result.fields["content"].JObj? ==>
              r == DictGet(result.fields["content"], "text", JStr(""))
    ensures result.JObj? && "content" in result.fields && result.fields["content"].JArr?
            && result.fields["content"].items != [] ==>
              r == DictGet(result.fields["content"].items[0], "text", JStr(""))
    ensures result.JObj? && "content" in result.fields && !result.fields["content"].JArr?
            && !result.fields["content"].JObj? ==>
              r == Err(NoAttribute(result.fields["content"], "get"))
  {
    if !result.JObj? then Err(NoAttribute(result, "get"))
    else if "content" !in result.fields then Ok(JStr(""))
    else
      var content := result.fields["content"];
      if content.JArr? then
        if content.items == [] then Err(IndexErrorText)
        else DictGet(content.items[0], "text", JStr(""))
      else DictGet(content, "text", JStr(""))
  }

  /** The document saved for a post: the three values, the ISO timestamp
      and the request as metadata. */
  function PostDoc(req: Request, draft: Json, finalPost: Json, imagePrompt: Json, isoNow: string): (doc: Json)
    ensures doc.JObj? && doc.fields.Keys == {"draft", "final_post", "image_prompt", "timestamp", "metadata"}
    ensures doc.fields["draft"] == draft && doc.fields["final_post"] == finalPost
    ensures doc.fields["image_prompt"] == imagePrompt && doc.fields["timestamp"] == JStr(isoNow)
    ensures var meta := doc.fields["metadata"];
            && meta.JObj? && meta.fields.Keys == {"topic", "style", "tone", "target_audience"}
            && meta.fields["topic"] == JStr(req.topic) && meta.fields["style"] == JStr(req.style)
            && meta.fields["tone"] == JStr(req.tone) && meta.fields["target_audience"] == JStr(req.targetAudience)
  {
    JObj(map["draft" := draft, "final_post" := finalPost, "image_prompt" := imagePrompt,
             "timestamp" := JStr(isoNow),
             "metadata" := JObj(map["topic" := JStr(req.topic), "style" := JStr(req.style),
                                    "tone" := JStr(req.tone),
                                    "target_audience" := JStr(req.targetAudience)])])
  }

  /** The endpoint's answer: the requests sent, the response, and the
      history directory afterwards. */
  datatype Generation = Generation(calls: seq<Call>, response: Response, dir: Dir)

  /** What happens once all three values are in: the document is written
      (a failed write answers 500 with the error and leaves the directory
      as it was), and only then is the response model built, which rejects
      a value that is not a string with `validationText` — after the file
      has been saved. */
  function Finish(calls: seq<Call>, req: Request, draft: Json, finalPost: Json, imagePrompt: Json,
                  isoNow: string, now: DateTime, dir: Dir, writeError: Option<string>,
                  validationText: string): (g: Generation)
    ensures g.calls == calls
    ensures writeError.Some? ==> g.dir == dir && g.response == ErrorResponse(HttpError(500, writeError.value))
    ensures writeError.None? ==> g.dir == Save(dir, PostFilename(now), PostDoc(req, draft, finalPost, imagePrompt, isoNow))
    ensures g.response.status == 200 <==> writeError.None? && draft.JStr? && finalPost.JStr? && imagePrompt.JStr?
    ensures g.response.status == 200 ==>
              g.response.body == JObj(map["draft" := draft, "final_post" := finalPost,
                                          "image_prompt" := imagePrompt, "timestamp" := JStr(isoNow)])
    ensures g.response.status != 200 ==> g.response.status == 500
    ensures AnswersSaved(g, req, isoNow, now)
  {
    match writeError
    case Some(e) => Generation(calls, ErrorResponse(HttpError(500, e)), dir)
    case None =>
      var saved := Save(dir, PostFilename(now), PostDoc(req, draft, finalPost, imagePrompt, isoNow));
      if draft.JStr? && finalPost.JStr? && imagePrompt.JStr? then
        Generation(calls, Response(200, JObj(map["draft" := draft, "final_post" := finalPost,
                                                 "image_prompt" := imagePrompt,
                                                 "timestamp" := JStr(isoNow)])), saved)
      else
        Generation(calls, ErrorResponse(HttpError(500, validationText)), saved)
  }

  /** What every answer of the endpoint satisfies, whichever stage it
      stopped at: between one and three requests were sent, every request
      but the last yielded a JSON body, a 504 or 503 means exactly that the
      last request timed out or could not connect, a failure of the last
      request is the response, and the directory changes only by saving one
      document under the post's name after all three requests succeeded
      and the write did. */
  predicate Consistent(g: Generation, net: Call -> Outcome, dir: Dir, now: DateTime, writeError: Option<string>) {
    && 1 <= |g.calls| <= 3
    && (forall i :: 0 <= i < |g.calls| - 1 ==> StageBody(net(g.calls[i]), StageLabel(i)).Ok?)
    && g.response.status in {200, 500, 503, 504}
    && (g.response.status == 504 <==> net(g.calls[|g.calls| - 1]).TimedOut?)
    && (g.response.status == 503 <==> net(g.calls[|g.calls| - 1]).ConnectFailed?)
    && (StageBody(net(g.calls[|g.calls| - 1]), StageLabel(|g.calls| - 1)).Err? ==>
          g.response == ErrorResponse(StageBody(net(g.calls[|g.calls| - 1]), StageLabel(|g.calls| - 1)).error))
    && (g.dir != dir ==>
          && |g.calls| == 3 && StageBody(net(g.calls[2]), StageLabel(2)).Ok? && writeError.None?
          && PostFilename(now) in g.dir && g.dir[PostFilename(now)].JsonFile?
          && g.dir == Save(dir, PostFilename(now), g.dir[PostFilename(now)].doc))
  }

  /** A 200 answer carries three strings and the timestamp, and exactly
      those values were saved under the post's name, with the request as
      metadata. */
  predicate AnswersSaved(g: Generation, req: Request, isoNow: string, now: DateTime) {
    g.response.status == 200 ==>
      && g.response.body.JObj? && {"draft", "final_post", "image_prompt"} <= g.response.body.fields.Keys
      && var b := g.response.body.fields;
         && b["draft"].JStr? && b["final_post"].JStr? && b["image_prompt"].JStr?
         && g.response.body == JObj(map["draft" := b["draft"], "final_post" := b["final_post"],
                                        "image_prompt" := b["image_prompt"], "timestamp" := JStr(isoNow)])
         && PostFilename(now) in g.dir
         && g.dir[PostFilename(now)] == JsonFile(PostDoc(req, b["draft"], b["final_post"], b["image_prompt"], isoNow))
  }

  /** The third stage onwards, once the refined post is known. */
  function AfterImprove(cfg: Config, req: Request, net: Call -> Outcome, isoNow: string, now: DateTime,
                        dir: Dir, writeError: Option<string>, validationText: string,
                        c1: Call, c2: Call, draft: Json, finalPost: Json): (g: Generation)
    requires StageBody(net(c1), StageLabel(0)).Ok? && StageBody(net(c2), StageLabel(1)).Ok?
    ensures g.calls == [c1, c2, WebImageCall(cfg, finalPost)]
    ensures Consistent(g, net, dir, now, writeError)
    ensures AnswersSaved(g, req, isoNow, now)
  {
    var c3 := WebImageCall(cfg, finalPost);
    var sent := [c1, c2, c3];
    match StageBody(net(c3), StageLabel(2))
    case Err(e) => Generation(sent, ErrorResponse(e), dir)
    case Ok(result3) =>
      match DictGet(result3, "image_path", JStr(""))
      case Err(m) => Generation(sent, ErrorResponse(HttpError(500, m)), dir)
      case Ok(imagePrompt) =>
        Finish(sent, req, draft, finalPost, imagePrompt, isoNow, now, dir, writeError, validationText)
  }

  /** The second stage onwards, once the draft is known. */
  function AfterDraft(cfg: Config, req: Request, net: Call -> Outcome, isoNow: string, now: DateTime,
                      dir: Dir, writeError: Option<string>, validationText: string,
                      c1: Call, draft: Json): (g: Generation)
    requires StageBody(net(c1), StageLabel(0)).Ok?
    ensures 2 <= |g.calls| && g.calls[..2] == [c1, WebImproveCall(cfg, req, draft)]
    ensures Consistent(g, net, dir, now, writeError)
    ensures AnswersSaved(g, req, isoNow, now)
  {
    var c2 := WebImproveCall(cfg, req, draft);
    match StageBody(net(c2), StageLabel(1))
    case Err(e) => Generation([c1, c2], ErrorResponse(e), dir)
    case Ok(result2) =>
      match DictGet(result2, "improved_text", JStr(""))
      case Err(m) => Generation([c1, c2], ErrorResponse(HttpError(500, m)), dir)
      case Ok(finalPost) =>
        var g := AfterImprove(cfg, req, net, isoNow, now, dir, writeError, validationText, c1, c2, draft, finalPost);
        assert g.calls[..2] == [c1, c2];
        g
  }

  /** `generate_post`. `net` answers each request; `isoNow` and `now` are
      the two separate clock readings (the document's timestamp and the file
      name); `writeError` is the error writing the file raises, if any;
      `validationText` is the message of the response model's rejection of a
      non-string value. The stages run in order and the first failure ends
      the request; the answer is `Consistent` and a 200 answer carries
      exactly what was saved. */
  function GeneratePost(cfg: Config, req: Request, net: Call -> Outcome, isoNow: string, now: DateTime,
                        dir: Dir, writeError: Option<string>, validationText: string): (g: Generation)
    ensures Consistent(g, net, dir, now, writeError)
    ensures g.calls[0] == WebDraftCall(cfg, req)
    ensures AnswersSaved(g, req, isoNow, now)
  {
    var c1 := WebDraftCall(cfg, req);
    match StageBody(net(c1), StageLabel(0))
    case Err(e) => Generation([c1], ErrorResponse(e), dir)
    case Ok(result1) =>
      match WebDraft(result1)
      case Err(m) => Generation([c1], ErrorResponse(HttpError(500, m)), dir)
      case Ok(draft) =>
        var g := AfterDraft(cfg, req, net, isoNow, now, dir, writeError, validationText, c1, draft);
        assert g.calls[0] == g.calls[..2][0];
        g
  }

  /** The reply bodies of a run in which each agent answers 200 with the
      field the gateway reads. */
  predicate AnswersWith(cfg: Config, req: Request, net: Call -> Outcome, d: Json, f: Json, p: Json) {
    && net(WebDraftCall(cfg, req)).Reply? && net(WebDraftCall(cfg, req)).status == 200
    && net(WebDraftCall(cfg, req)).body == Parsed(Single("content", JArr([Single("text", d)])))
    && net(WebImproveCall(cfg, req, d)).Reply? && net(WebImproveCall(cfg, req, d)).status == 200
    && net(WebImproveCall(cfg, req, d)).body == Parsed(Single("improved_text", f))
    && net(WebImageCall(cfg, f)).Reply? && net(WebImageCall(cfg, f)).status == 200
    && net(WebImageCall(cfg, f)).body == Parsed(Single("image_path", p))
  }

  /** When every agent answers, the three requests are sent in order, each
      carrying the previous value, and the document is saved whatever the
      values are; the answer is 200 exactly when all three are strings. */
  lemma AllAnswered(cfg: Config, req: Request, net: Call -> Outcome, isoNow: string, now: DateTime,
                    dir: Dir, validationText: string, d: Json, f: Json, p: Json)
    requires AnswersWith(cfg, req, net, d, f, p)
    ensures GeneratePost(cfg, req, net, isoNow, now, dir, None, validationText)
            == Finish([WebDraftCall(cfg, req), WebImproveCall(cfg, req, d), WebImageCall(cfg, f)],
                      req, d, f, p, isoNow, now, dir, None, validationText)
  {
    var c1 := WebDraftCall(cfg, req);
    assert WebDraft(net(c1).body.json) == Ok(d);
    var c2 := WebImproveCall(cfg, req, d);
    assert DictGet(net(c2).body.json, "improved_text", JStr("")) == Ok(f);
    var c3 := WebImageCall(cfg, f);
    assert DictGet(net(c3).body.json, "image_path", JStr("")) == Ok(p);
  }

  /** The gateway checks no lengths: an empty draft and an empty post are
      passed on and answered with 200. */
  lemma EmptyDraftAccepted(cfg: Config, req: Request, net: Call -> Outcome, isoNow: string, now: DateTime,
                           dir: Dir, validationText: string, p: string)
    requires AnswersWith(cfg, req, net, JStr(""), JStr(""), JStr(p))
    ensures var g := GeneratePost(cfg, req, net, isoNow, now, dir, None, validationText);
            && g.calls[1] == WebImproveCall(cfg, req, JStr(""))
            && g.response == Response(200, JObj(map["draft" := JStr(""), "final_post" := JStr(""),
                                                    "image_prompt" := JStr(p), "timestamp" := JStr(isoNow)]))
  {
    AllAnswered(cfg, req, net, isoNow, now, dir, validationText, JStr(""), JStr(""), JStr(p));
    assert GeneratePost(cfg, req, net, isoNow, now, dir, None, validationText).calls[1]
           == WebImproveCall(cfg, req, JStr(""));
  }

  /** An empty `content` list makes the draft lookup raise `IndexError`:
      the request ends after the first call with 500 and nothing is
      saved. */
  lemma EmptyContentListIs500(cfg: Config, req: Request, net: Call -> Outcome, isoNow: string, now: DateTime,
                              dir: Dir, writeError: Option<string>, validationText: string, text: string)
    requires net(WebDraftCall(cfg, req)) == Reply(200, text, Parsed(Single("content", JArr([]))))
    ensures var g := GeneratePost(cfg, req, net, isoNow, now, dir, writeError, validationText);
            && g.calls == [WebDraftCall(cfg, req)]
            && g.response == ErrorResponse(HttpError(500, IndexErrorText))
            && g.dir == dir
  {
    assert WebDraft(Single("content", JArr([]))) == Err(IndexErrorText);
  }

  /** A value that is not a string is saved and then rejected: the
      directory holds a post whose request was answered with 500. */
  lemma SavedThoughRejected(cfg: Config, req: Request, net: Call -> Outcome, isoNow: string, now: DateTime,
                            dir: Dir, validationText: string, d: string, f: string)
    requires AnswersWith(cfg, req, net, JStr(d), JStr(f), JNull)
    ensures var g := GeneratePost(cfg, req, net, isoNow, now, dir, None, validationText);
            && g.response == ErrorResponse(HttpError(500, validationText))
            && g.dir == Save(dir, PostFilename(now), PostDoc(req, JStr(d), JStr(f), JNull, isoNow))
  {
    AllAnswered(cfg, req, net, isoNow, now, dir, validationText, JStr(d), JStr(f), JNull);
  }

  /** The history entry of a saved post shows the request's topic and the
      post's timestamp and final text. */
  lemma PostDocEntry(name: string, req: Request, d: Json, f: Json, p: Json, isoNow: string)
    ensures EntryOf(name, JsonFile(PostDoc(req, d, f, p, isoNow)))
            == Ok(JObj(map["filename" := JStr(name), "timestamp" := JStr(isoNow),
                           "topic" := JStr(req.topic), "final_post" := f]))
  {
  }

  /** A post answered with 200 can be read back: the lookup returns the
      saved document, and its history entry shows the request's topic and
      the answered post and timestamp. */
  lemma SavedPostReadBack(cfg: Config, req: Request, net: Call -> Outcome, isoNow: string, now: DateTime,
                          dir: Dir, writeError: Option<string>, validationText: string)
    requires GeneratePost(cfg, req, net, isoNow, now, dir, writeError, validationText).response.status == 200
    ensures var g := GeneratePost(cfg, req, net, isoNow, now, dir, writeError, validationText);
            var name := PostFilename(now);
            && name in g.dir && g.dir[name].JsonFile?
            && GetHistoryItem(g.dir, name) == Response(200, g.dir[name].doc)
            && EntryOf(name, g.dir[name]) == Ok(JObj(map["filename" := JStr(name),
                                                         "timestamp" := g.response.body.fields["timestamp"],
                                                         "topic" := JStr(req.topic),
                                                         "final_post" := g.response.body.fields["final_post"]]))
  {
    var g := GeneratePost(cfg, req, net, isoNow, now, dir, writeError, validationText);
    assert AnswersSaved(g, req, isoNow, now);
    var b := g.response.body.fields;
    PostDocEntry(PostFilename(now), req, b["draft"], b["final_post"], b["image_prompt"], isoNow);
  }

  /** A post saved after every post already in the directory heads the
      next history listing. */
  lemma GeneratedPostListedFirst(cfg: Config, req: Request, net: Call -> Outcome, isoNow: string, now: DateTime,
                                 dir: Dir, writeError: Option<string>, validationText: string, names: seq<string>)
    requires Valid(now)
    requires forall t :: Valid(t) && PostFilename(t) in Matching(dir) ==> Before(t, now)
    requires forall n :: n in Matching(dir) ==> exists t :: Valid(t) && n == PostFilename(t)
    requires GeneratePost(cfg, req, net, isoNow, now, dir, writeError, validationText).response.status == 200
    requires IsNewest(names, Matching(GeneratePost(cfg, req, net, isoNow, now, dir, writeError, validationText).dir), 10)
    ensures |names| >= 1 && names[0] == PostFilename(now)
  {
    var g := GeneratePost(cfg, req, net, isoNow, now, dir, writeError, validationText);
    var name := PostFilename(now);
    assert AnswersSaved(g, req, isoNow, now);
    var doc := g.dir[name].doc;
    assert !Before(now, now);
    assert name !in Matching(dir);
    assert g.dir == Save(dir, name, doc);
    forall n | n in Matching(dir) && n != name
      ensures StrLess(n, name)
    {
      var t :| Valid(t) && n == PostFilename(t);
      PostFilenamesByInstant(t, now);
    }
    NewestSavedFirst(dir, name, doc, names);
  }
}

=== FILE: health.dfy ===
/** The orchestrator's readiness loop (`Orchestrator.verify_agents_health`
    in api/main.py): up to `retries` attempts, each probing Agent1 and then
    Agent2, with a sleep between attempts but never after the last one. */
module HealthProbe {
  import opened Http
  import opened StageClients

  datatype AgentName = Agent1 | Agent2

  /** What the loop does, in order: the readiness request sent to one
      agent in a numbered attempt, or a sleep of `delay` seconds. */
  datatype Event = Probe(agent: AgentName, attempt: nat, request: Call) | Sleep(seconds: int)

  /** The client the orchestrator uses for an agent. */
  function ClientOf(agent: AgentName, agent1: Client, agent2: Client): Client {
    if agent == Agent1 then agent1 else agent2
  }

  /** Both probes of attempt `k` found their agent healthy; `net(k, c)` is
      the outcome of sending `c` during attempt `k`. */
  predicate BothHealthy(agent1: Client, agent2: Client, net: (nat, Call) -> Outcome, k: nat) {
    HealthCheck(net(k, HealthCall(agent1))) && HealthCheck(net(k, HealthCall(agent2)))
  }

  /** The two probes of attempt `k`, Agent1 first. */
  function Probes(k: nat, agent1: Client, agent2: Client): seq<Event> {
    [Probe(Agent1, k, HealthCall(agent1)), Probe(Agent2, k, HealthCall(agent2))]
  }

  /** The events of `n` complete attempts: both probes per attempt, a
      sleep between consecutive attempts. */
  function Schedule(n: nat, delay: int, agent1: Client, agent2: Client): seq<Event>
    decreases n
  {
    if n == 0 then []
    else if n == 1 then Probes(1, agent1, agent2)
    else Schedule(n - 1, delay, agent1, agent2) + [Sleep(delay)] + Probes(n, agent1, agent2)
  }

  /** Every probe in `t` is the readiness request `GET {base}/` of the
      agent it names, in one of the attempts `1..n`. */
  predicate ProbesRouted(t: seq<Event>, n: nat, agent1: Client, agent2: Client) {
    forall i :: 0 <= i < |t| && t[i].Probe? ==>
      && 1 <= t[i].attempt <= n
      && t[i].request == HealthCall(ClientOf(t[i].agent, agent1, agent2))
  }

  /** The schedule sends each agent only its own readiness request. */
  lemma {:induction false} ScheduleRequests(n: nat, delay: int, agent1: Client, agent2: Client)
    ensures ProbesRouted(Schedule(n, delay, agent1, agent2), n, agent1, agent2)
    decreases n
  {
    if n > 1 {
      ScheduleRequests(n - 1, delay, agent1, agent2);
      var prev := Schedule(n - 1, delay, agent1, agent2);
      var t := Schedule(n, delay, agent1, agent2);
      assert t == prev + [Sleep(delay)] + Probes(n, agent1, agent2);
      forall i | 0 <= i < |t| && t[i].Probe?
        ensures 1 <= t[i].attempt <= n && t[i].request == HealthCall(ClientOf(t[i].agent, agent1, agent2))
      {
        if i < |prev| {
          assert t[i] == prev[i];
        } else {
          assert t[|prev|] == Sleep(delay);
          assert t[i] == Probes(n, agent1, agent2)[i - |prev| - 1];
        }
      }
    }
  }

  function CountProbes(trace: seq<Event>, agent: AgentName): nat
    decreases |trace|
  {
    if trace == [] then 0
    else (if trace[0].Probe? && trace[0].agent == agent then 1 else 0) + CountProbes(trace[1..], agent)
  }

  function CountSleeps(trace: seq<Event>): nat
    decreases |trace|
  {
    if trace == [] then 0
    else (if trace[0].Sleep? then 1 else 0) + CountSleeps(trace[1..])
  }

  lemma {:induction false} CountsAppend(a: seq<Event>, b: seq<Event>)
    ensures CountProbes(a + b, Agent1) == CountProbes(a, Agent1) + CountProbes(b, Agent1)
    ensures CountProbes(a + b, Agent2) == CountProbes(a, Agent2) + CountProbes(b, Agent2)
    ensures CountSleeps(a + b) == CountSleeps(a) + CountSleeps(b)
    decreases |a|
  {
    if a == [] {
      assert a + b == b;
    } else {
      CountsAppend(a[1..], b);
      assert (a + b)[1..] == a[1..] + b;
    }
  }

  /** `n` attempts probe each agent exactly `n` times and sleep `n - 1`
      times (never before the first attempt or after the last). */
  /** One attempt probes each agent once and does not sleep. */
  lemma ProbesCounts(k: nat, agent1: Client, agent2: Client)
    ensures CountProbes(Probes(k, agent1, agent2), Agent1) == 1
    ensures CountProbes(Probes(k, agent1, agent2), Agent2) == 1
    ensures CountSleeps(Probes(k, agent1, agent2)) == 0
  {
    var t := Probes(k, agent1, agent2);
    assert t[1..] == [Probe(Agent2, k, HealthCall(agent2))] && t[1..][1..] == [];
    assert CountProbes(t[1..], Agent1) == 0 && CountProbes(t[1..], Agent2) == 1 && CountSleeps(t[1..]) == 0;
  }

  lemma {:induction false} ScheduleCounts(n: nat, delay: int, agent1: Client, agent2: Client)
    ensures CountProbes(Schedule(n, delay, agent1, agent2), Agent1) == n
    ensures CountProbes(Schedule(n, delay, agent1, agent2), Agent2) == n
    ensures CountSleeps(Schedule(n, delay, agent1, agent2)) == if n == 0 then 0 else n - 1
    decreases n
  {
    if n == 1 {
      ProbesCounts(1, agent1, agent2);
    } else if n > 1 {
      ScheduleCounts(n - 1, delay, agent1, agent2);
      ProbesCounts(n, agent1, agent2);
      var tail := [Sleep(delay)] + Probes(n, agent1, agent2);
      assert tail[1..] == Probes(n, agent1, agent2);
      CountsAppend(Schedule(n - 1, delay, agent1, agent2), tail);
      assert Schedule(n, delay, agent1, agent2) == Schedule(n - 1, delay, agent1, agent2) + tail;
    }
  }

  /** `verify_agents_health(retries, delay)` of an orchestrator with the
      clients `agent1` and `agent2`; `net(k, c)` is the outcome of the
      readiness request `c` in attempt `k`. It reports healthy exactly when some
      attempt `k` in `1..retries` finds both agents healthy, stopping at the
      first such `k`; otherwise it gives up after `retries` attempts (none
      when `retries <= 0`). The events it performs are exactly
      `Schedule(attempts, delay, agent1, agent2)`. */
  method VerifyAgentsHealth(agent1: Client, agent2: Client, retries: int, delay: int, net: (nat, Call) -> Outcome)
    returns (healthy: bool, attempts: nat, trace: seq<Event>)
    ensures healthy ==> 1 <= attempts <= retries && BothHealthy(agent1, agent2, net, attempts)
    ensures !healthy ==> attempts == (if retries > 0 then retries else 0)
    ensures forall k :: 1 <= k < attempts ==> !BothHealthy(agent1, agent2, net, k)
    ensures !healthy ==> forall k :: 1 <= k <= retries ==> !BothHealthy(agent1, agent2, net, k)
    ensures trace == Schedule(attempts, delay, agent1, agent2)
    ensures ProbesRouted(trace, attempts, agent1, agent2)
  {
    healthy := false;
    attempts := 0;
    trace := [];
    var attempt := 1;
    while attempt <= retries
      invariant 1 <= attempt && attempts == attempt - 1
      invariant attempt <= (if retries >= 1 then retries + 1 else 1)
      invariant forall k :: 1 <= k < attempt ==> !BothHealthy(agent1, agent2, net, k)
      invariant trace == Schedule(attempts, delay, agent1, agent2) + (if 1 < attempt <= retries then [Sleep(delay)] else [])
      decreases retries - attempt
    {
      var agent1Ok := HealthCheck(net(attempt, HealthCall(agent1)));
      trace := trace + [Probe(Agent1, attempt, HealthCall(agent1))];
      var agent2Ok := HealthCheck(net(attempt, HealthCall(agent2)));
      trace := trace + [Probe(Agent2, attempt, HealthCall(agent2))];
      attempts := attempt;
      if agent1Ok && agent2Ok {
        healthy := true;
        ScheduleRequests(attempts, delay, agent1, agent2);
        return;
      }
      if attempt < retries {
        trace := trace + [Sleep(delay)];
      }
      attempt := attempt + 1;
    }
    ScheduleRequests(attempts, delay, agent1, agent2);
  }
}

=== FILE: history.dfy ===
/** The web gateway's history directory (/app/history in api/web_app.py):
    one JSON file per generated post, named after the second it was saved;
    the listing of the ten newest, and lookup and download by name. The
    directory is a map from file names to contents. */
module HistoryStore {
  import opened Results
  import opened PyText
  import opened JsonValues
  import opened Http
  import opened Stamps

  /** What reading a file with `json.load` gives: a document, or the
      message of the exception raised. */
  datatype FileContent = JsonFile(doc: Json) | NotJson(reason: string)

  /** The history directory: file name to contents. */
  type Dir = map<string, FileContent>

  const Prefix := "post_"
  const Suffix := ".json"

  /** `Path.glob("post_*.json")` on one name: the fixed prefix and suffix,
      which may not overlap, around any middle. */
  predicate MatchesGlob(name: string) {
    |name| >= |Prefix| + |Suffix| && StartsWith(name, Prefix) && EndsWith(name, Suffix)
  }

  /** The names the listing considers. */
  function Matching(dir: Dir): set<string> {
    set n | n in dir && MatchesGlob(n)
  }

  /** The name a post saved at instant `t` gets:
      `post_{t.strftime('%Y%m%d_%H%M%S')}.json`. */
  function PostFilename(t: DateTime): (name: string)
    ensures MatchesGlob(name)
  {
    var name := Prefix + Compact(t) + Suffix;
    assert name[..|Prefix|] == Prefix;
    assert name[|name| - |Suffix|..] == Suffix;
    name
  }

  /** Posts saved in distinct seconds get distinct names, and names sort in
      the order the posts were saved. */
  lemma PostFilenamesByInstant(a: DateTime, b: DateTime)
    requires Valid(a) && Valid(b)
    ensures PostFilename(a) == PostFilename(b) <==> a == b
    ensures StrLess(PostFilename(a), PostFilename(b)) <==> Before(a, b)
  {
    StampedNameOrder(Prefix, Suffix, a, b);
  }

  /** Writing `doc` to `name` (`json.dump`); reading it back gives `doc`.
      Nothing else in the directory changes. */
  function Save(dir: Dir, name: string, doc: Json): (d: Dir)
    ensures name in d && d[name] == JsonFile(doc)
    ensures forall n :: n != name ==> (n in d <==> n in dir)
    ensures forall n :: n != name && n in dir ==> d[n] == dir[n]
  {
    dir[name := JsonFile(doc)]
  }

  /** Two posts saved within the same second share a file: only the later
      survives. */
  lemma SameSecondOverwrites(dir: Dir, t: DateTime, first: Json, second: Json)
    ensures Save(Save(dir, PostFilename(t), first), PostFilename(t), second)
            == Save(dir, PostFilename(t), second)
  {
  }

  // ---------------- listing ----------------

  /** `names` is `sorted(pool, reverse=True)[:limit]`: the `limit` greatest
      names of `pool` (all of them if fewer), greatest first. */
  predicate IsNewest(names: seq<string>, pool: set<string>, limit: nat) {
    && |names| == (if |pool| < limit then |pool| else limit)
    && (forall i :: 0 <= i < |names| ==> names[i] in pool)
    && (forall i, j :: 0 <= i < j < |names| ==> StrLess(names[j], names[i]))
    && (forall n, i :: n in pool && n !in names && 0 <= i < |names| ==> StrLess(n, names[i]))
  }

  /** The greatest name of a non-empty set. */
  method MaxName(s: set<string>) returns (m: string)
    requires s != {}
    ensures m in s
    ensures forall x :: x in s && x != m ==> StrLess(x, m)
  {
    m :| m in s;
    var rest := s - {m};
    while rest != {}
      invariant m in s && rest <= s && m !in rest
      invariant forall x :: x in s && x !in rest && x != m ==> StrLess(x, m)
      decreases |rest|
    {
      var x :| x in rest;
      if StrLess(m, x) {
        forall y | y in s && y !in rest && y != m
          ensures StrLess(y, x)
        {
          StrLessTransitive(y, m, x);
        }
        m := x;
      } else {
        StrLessTotal(m, x);
      }
      rest := rest - {x};
    }
  }

  /** The newest `limit` names, by repeatedly taking the greatest of those
      left. */
  method NewestNames(pool: set<string>, limit: nat) returns (names: seq<string>)
    ensures IsNewest(names, pool, limit)
  {
    names := [];
    var rest := pool;
    while |names| < limit && rest != {}
      invariant rest <= pool && |names| <= limit
      invariant |names| + |rest| == |pool|
      invariant forall i :: 0 <= i < |names| ==> names[i] in pool && names[i] !in rest
      invariant forall x :: x in pool && x !in rest ==> x in names
      invariant forall i, j :: 0 <= i < j < |names| ==> StrLess(names[j], names[i])
      invariant forall x, i :: x in rest && 0 <= i < |names| ==> StrLess(x, names[i])
      decreases |rest|
    {
      var m := MaxName(rest);
      names := names + [m];
      rest := rest - {m};
    }
  }

  /** Only one sequence is the newest `limit` names of a pool. */
  lemma NewestUnique(a: seq<string>, b: seq<string>, pool: set<string>, limit: nat)
    requires IsNewest(a, pool, limit) && IsNewest(b, pool, limit)
    ensures a == b
  {
    forall k | 0 <= k < |a|
      ensures a[k] == b[k]
    {
      NewestAgreeAt(a, b, pool, limit, k);
    }
  }

  lemma {:induction false} NewestAgreeAt(a: seq<string>, b: seq<string>, pool: set<string>, limit: nat, k: nat)
    requires IsNewest(a, pool, limit) && IsNewest(b, pool, limit) && k < |a|
    ensures a[k] == b[k]
    decreases k
  {
    forall j | 0 <= j < k
      ensures a[j] == b[j]
    {
      NewestAgreeAt(a, b, pool, limit, j);
    }
    NotBelow(a, b, pool, limit, k);
    NotBelow(b, a, pool, limit, k);
    StrLessTotal(a[k], b[k]);
  }

  /** Once the first `k` entries agree, entry `k` of one cannot sort below
      entry `k` of the other. */
  lemma NotBelow(a: seq<string>, b: seq<string>, pool: set<string>, limit: nat, k: nat)
    requires IsNewest(a, pool, limit) && IsNewest(b, pool, limit) && k < |a|
    requires forall j :: 0 <= j < k ==> a[j] == b[j]
    ensures !StrLess(b[k], a[k])
  {
    if a[k] in b {
      var j :| 0 <= j < |b| && b[j] == a[k];
      if j < k {
        assert StrLess(a[k], a[j]);
        StrLessIrreflexive(a[k]);
      } else if k < j {
        assert StrLess(b[j], b[k]);
        StrLessAsymmetric(b[j], b[k]);
      } else {
        StrLessIrreflexive(a[k]);
      }
    } else {
      assert StrLess(a[k], b[k]);
      StrLessAsymmetric(a[k], b[k]);
    }
  }

  // ---------------- entries ----------------

  /** One history entry, built as the dictionary display evaluates it:
      `timestamp` and `final_post` default to null, `topic` is read from
      `metadata` (an empty dict when absent). A file that is not JSON, a
      document that is not an object, or a `metadata` that is not an object
      raises, and the message is the error. */
  function EntryOf(name: string, content: FileContent): (e: Result<Json, string>)
    ensures e.Ok? <==>
              && content.JsonFile? && content.doc.JObj?
              && ("metadata" in content.doc.fields ==> content.doc.fields["metadata"].JObj?)
    ensures content.NotJson? ==> e == Err(content.reason)
    ensures content.JsonFile? && !content.doc.JObj? ==> e == Err(NoAttribute(content.doc, "get"))
    ensures content.JsonFile? && content.doc.JObj? && e.Err? ==>
              e == Err(NoAttribute(content.doc.fields["metadata"], "get"))
    ensures e.Ok? ==>
              var doc := content.doc;
              var metadata := DictGet(doc, "metadata", JObj(map[])).value;
              e.value == JObj(map["filename" := JStr(name),
                                  "timestamp" := DictGet(doc, "timestamp", JNull).value,
                                  "topic" := DictGet(metadata, "topic", JNull).value,
                                  "final_post" := DictGet(doc, "final_post", JNull).value])
  {
    match content
    case NotJson(reason) => Err(reason)
    case JsonFile(doc) =>
      if !doc.JObj? then Err(NoAttribute(doc, "get"))
      else
        var f := doc.fields;
        var metadata := if "metadata" in f then f["metadata"] else JObj(map[]);
        if !metadata.JObj? then Err(NoAttribute(metadata, "get"))
        else
          var meta := metadata.fields;
          Ok(JObj(map["filename" := JStr(name),
                      "timestamp" := (if "timestamp" in f then f["timestamp"] else JNull),
                      "topic" := (if "topic" in meta then meta["topic"] else JNull),
                      "final_post" := (if "final_post" in f then f["final_post"] else JNull)]))
  }

  /** The entries of the named files in order, or the error of the first
      one that fails. */
  function HistoryOf(dir: Dir, names: seq<string>): (r: Result<seq<Json>, string>)
    requires forall i :: 0 <= i < |names| ==> names[i] in dir
    ensures r.Ok? <==> forall i :: 0 <= i < |names| ==> EntryOf(names[i], dir[names[i]]).Ok?
    ensures r.Ok? ==> |r.value| == |names|
                      && forall i :: 0 <= i < |names| ==> r.value[i] == EntryOf(names[i], dir[names[i]]).value
    ensures r.Err? ==> exists i :: 0 <= i < |names|
                          && (forall j :: 0 <= j < i ==> EntryOf(names[j], dir[names[j]]).Ok?)
                          && EntryOf(names[i], dir[names[i]]) == Err(r.error)
    decreases |names|
  {
    if names == [] then Ok([])
    else
      match EntryOf(names[0], dir[names[0]])
      case Err(e) => Err(e)
      case Ok(entry) =>
        match HistoryOf(dir, names[1..])
        case Err(e) =>
          assert forall j :: 1 <= j < |names| ==> names[1..][j - 1] == names[j];
          Err(e)
        case Ok(rest) => Ok([entry] + rest)
  }

  /** `GET /api/history`: the entries of the ten newest matching files, or
      500 with the message of the first failure. `names` are the files
      listed. */
  method GetHistory(dir: Dir) returns (names: seq<string>, r: Response)
    ensures IsNewest(names, Matching(dir), 10)
    ensures forall i :: 0 <= i < |names| ==> names[i] in dir
    ensures HistoryOf(dir, names).Ok? ==> r == Response(200, Single("history", JArr(HistoryOf(dir, names).value)))
    ensures HistoryOf(dir, names).Err? ==> r == ErrorResponse(HttpError(500, HistoryOf(dir, names).error))
  {
    names := NewestNames(Matching(dir), 10);
    match HistoryOf(dir, names)
    case Ok(entries) =>
      r := Response(200, Single("history", JArr(entries)));
    case Err(e) =>
      r := ErrorResponse(HttpError(500, e));
  }

  /** A post saved later than every file already listed heads the next
      listing. */
  lemma NewestSavedFirst(dir: Dir, name: string, doc: Json, names: seq<string>)
    requires MatchesGlob(name)
    requires forall n :: n in Matching(dir) && n != name ==> StrLess(n, name)
    requires IsNewest(names, Matching(Save(dir, name, doc)), 10)
    ensures |names| >= 1 && names[0] == name
  {
    var pool := Matching(Save(dir, name, doc));
    assert name in pool;
    assert |pool| >= 1;
    if names[0] != name {
      if name in names {
        var j :| 0 <= j < |names| && names[j] == name;
        assert StrLess(names[0], name);
        StrLessAsymmetric(names[0], name);
      } else {
        StrLessAsymmetric(names[0], name);
      }
    }
  }

  // ---------------- lookup ----------------

  const NotFound := "File not found"

  /** `GET /api/history/{filename}` as written: the missing-file 404 is
      raised inside the `try` and caught by its blanket handler, so it
      reaches the client as 500 with detail "404: File not found". */
  function GetHistoryItem(dir: Dir, filename: string): (r: Response)
    ensures filename in dir && dir[filename].JsonFile? ==> r == Response(200, dir[filename].doc)
    ensures filename in dir && dir[filename].NotJson? ==> r == ErrorResponse(HttpError(500, dir[filename].reason))
    ensures filename !in dir ==> r == ErrorResponse(HttpError(500, ExceptionText(HttpError(404, NotFound))))
  {
    if filename !in dir then ErrorResponse(HttpError(500, ExceptionText(HttpError(404, NotFound))))
    else
      match dir[filename]
      case JsonFile(doc) => Response(200, doc)
      case NotJson(reason) => ErrorResponse(HttpError(500, reason))
  }

  /** The lookup as evidently intended: a missing file is a 404. */
  function GetHistoryItemIntended(dir: Dir, filename: string): (r: Response)
    ensures filename !in dir ==> r == ErrorResponse(HttpError(404, NotFound))
    ensures filename in dir ==> r == GetHistoryItem(dir, filename)
  {
    if filename !in dir then ErrorResponse(HttpError(404, NotFound))
    else GetHistoryItem(dir, filename)
  }

  /** The two lookups differ exactly on missing files, where the written one
      answers 500 instead of 404. */
  lemma MissingItemIs500(dir: Dir, filename: string)
    ensures GetHistoryItem(dir, filename) == GetHistoryItemIntended(dir, filename) <==> filename in dir
    ensures filename !in dir ==>
              GetHistoryItem(dir, filename).status == 500 && GetHistoryItemIntended(dir, filename).status == 404
  {
  }

  /** What a download request ends in: the file sent under its name, or an
      HTTP error. */
  datatype Download = FileSent(name: string) | DownloadError(error: HttpError)

  /** `GET /api/download/{filename}` as written: like the lookup, a missing
      file is reported as 500 "404: File not found". */
  function DownloadFile(dir: Dir, filename: string): (d: Download)
    ensures d.FileSent? <==> filename in dir
    ensures d.FileSent? ==> d.name == filename
    ensures filename !in dir ==> d == DownloadError(HttpError(500, ExceptionText(HttpError(404, NotFound))))
  {
    if filename in dir then FileSent(filename)
    else DownloadError(HttpError(500, ExceptionText(HttpError(404, NotFound))))
  }

  /** The download as evidently intended: a missing file is a 404. */
  function DownloadFileIntended(dir: Dir, filename: string): (d: Download)
    ensures filename in dir ==> d == DownloadFile(dir, filename)
    ensures filename !in dir ==> d == DownloadError(HttpError(404, NotFound))
  {
    if filename in dir then FileSent(filename) else DownloadError(HttpError(404, NotFound))
  }

  /** The written download reports 500 for exactly the requests the
      intended one reports 404 for. */
  lemma MissingDownloadIs500(dir: Dir, filename: string)
    ensures DownloadFile(dir, filename).DownloadError? <==> DownloadFileIntended(dir, filename).DownloadError?
    ensures filename !in dir ==>
              DownloadFile(dir, filename).error.status == 500
              && DownloadFileIntended(dir, filename).error.status == 404
  {
  }

  /** `GET /health`. */
  function Health(): Json {
    JObj(map["status" := JStr("ok"), "service" := JStr("Web Interface")])
  }
}

=== FILE: http.dfy ===
/** What the services see of HTTP: a request, the outcome of sending it,
    and the reply an endpoint produces. Transport, headers and timeouts
    are abstracted to these outcomes. */
module Http {
  import opened PyText
  import opened JsonValues

  /** A reply body: JSON, or text on which `response.json()` raises (the
      exception text is kept). */
  datatype Body = Parsed(json: Json) | Unparseable(reason: string)

  /** How one `httpx` request ends. The reasons are the `str()` of the
      raised exception. */
  datatype Outcome =
    | Reply(status: int, text: string, body: Body)
    | TimedOut(reason: string)      // httpx.TimeoutException
    | ConnectFailed(reason: string) // httpx.ConnectError
    | OtherFailure(reason: string)  // any other exception from the transport

  /** A request a client sends. */
  datatype Call = Get(url: string) | Post(url: string, payload: Json)

  /** The status and JSON body a FastAPI endpoint answers with. */
  datatype Response = Response(status: int, body: Json)

  /** An HTTP error as FastAPI reports it: status and `detail`. */
  datatype HttpError = HttpError(status: int, detail: string)

  /** The outcome a client observes when an endpoint answers `r`; `text`
      is the serialised body, which only error messages quote. */
  function Received(r: Response, text: string): Outcome {
    Reply(r.status, text, Parsed(r.body))
  }

  /** The reply FastAPI sends for an uncaught `HTTPException`. */
  function ErrorResponse(e: HttpError): Response {
    Response(e.status, Single("detail", JStr(e.detail)))
  }

  /** `str(HTTPException(status, detail))`, which Starlette renders as
      "<status>: <detail>". */
  function ExceptionText(e: HttpError): string {
    Decimal(e.status) + ": " + e.detail
  }
}

=== FILE: json.dfy ===
/** Values produced by Python's `json` module, and the handful of Python
    operations the services apply to them (`.get`, `len`, truth value,
    `str`), including the text of the exception each raises when applied
    to the wrong kind of value. */
module JsonValues {
  import opened Results
  import opened PyText

  /** A decoded JSON value. Numbers are integers; JSON floats are not part
      of this model. An object is a map from keys to values. */
  datatype Json =
    | JNull
    | JBool(b: bool)
    | JNum(n: int)
    | JStr(s: string)
    | JArr(items: seq<Json>)
    | JObj(fields: map<string, Json>)

  /** `type(x).__name__` of the decoded Python object. */
  function TypeName(j: Json): string {
    match j
    case JNull => "NoneType"
    case JBool(_) => "bool"
    case JNum(_) => "int"
    case JStr(_) => "str"
    case JArr(_) => "list"
    case JObj(_) => "dict"
  }

  /** Python's truth value `bool(x)`. */
  predicate Truthy(j: Json) {
    match j
    case JNull => false
    case JBool(b) => b
    case JNum(n) => n != 0
    case JStr(s) => s != []
    case JArr(xs) => xs != []
    case JObj(m) => m != map[]
  }

  /** Python's `len(x)`, or `None` where `len` raises `TypeError`. */
  function PyLen(j: Json): Option<nat> {
    match j
    case JStr(s) => Some(|s|)
    case JArr(xs) => Some(|xs|)
    case JObj(m) => Some(|m.Keys|)
    case _ => None
  }

  /** The message of the `AttributeError` raised by `x.attr` when the
      object has no such attribute. */
  function NoAttribute(j: Json, attr: string): string {
    "'" + TypeName(j) + "' object has no attribute '" + attr + "'"
  }

  /** The message of the `TypeError` raised by `len(x)`. */
  function NoLen(j: Json): string {
    "object of type '" + TypeName(j) + "' has no len()"
  }

  /** Python's `x.get(key, default)`; an `AttributeError` unless `x` is a
      dict. `x.get(key)` is `DictGet(x, key, JNull)`. */
  function DictGet(j: Json, key: string, default: Json): Result<Json, string> {
    match j
    case JObj(m) => Ok(if key in m then m[key] else default)
    case _ => Err(NoAttribute(j, "get"))
  }

  /** Python's `str(x)`. Strings, `None`, booleans and integers render
      exactly; how a list or dict renders is given by `render`. */
  function PyStr(j: Json, render: Json -> string): string {
    match j
    case JStr(s) => s
    case JNull => "None"
    case JBool(b) => if b then "True" else "False"
    case JNum(n) => Decimal(n)
    case _ => render(j)
  }

  /** A one-key JSON object. */
  function Single(key: string, value: Json): (j: Json)
    ensures j.JObj? && j.fields.Keys == {key} && j.fields[key] == value
  {
    JObj(map[key := value])
  }
}

=== FILE: pytext.dfy ===
/** The few Python `str` operations the services rely on: `strip()`,
    `rstrip(c)`, `replace(c, '')`, `split(c)`, `str(int)`, zero-padded
    `strftime` fields and the code-point ordering `sorted` uses.
    A Dafny `char` is a Unicode scalar value, so `|s|` is Python's `len(s)`. */
module PyText {

  /** The characters for which Python's `str.isspace()` holds; these are
      exactly the characters `str.strip()` removes. */
  predicate IsSpace(c: char) {
    || ('\t' <= c <= '\r')
    || ('\U{1c}' <= c <= ' ')
    || c == '\U{85}' || c == '\U{a0}' || c == '\U{1680}'
    || ('\U{2000}' <= c <= '\U{200a}')
    || c == '\U{2028}' || c == '\U{2029}' || c == '\U{202f}'
    || c == '\U{205f}' || c == '\U{3000}'
  }

  /** True when every character of `s` is white space (vacuously for ""). */
  predicate Blank(s: string) {
    forall k :: 0 <= k < |s| ==> IsSpace(s[k])
  }

  function LStrip(s: string): (r: string)
    ensures |r| <= |s| && r == s[|s| - |r|..]
    ensures Blank(s[..|s| - |r|])
    ensures r != [] ==> !IsSpace(r[0])
    decreases |s|
  {
    if s != [] && IsSpace(s[0]) then
      var r := LStrip(s[1..]);
      assert s[..|s| - |r|] == [s[0]] + s[1..][..|s| - 1 - |r|];
      r
    else s
  }

  function RStrip(s: string): (r: string)
    ensures |r| <= |s| && r == s[..|r|]
    ensures Blank(s[|r|..])
    ensures r != [] ==> !IsSpace(r[|r| - 1])
    decreases |s|
  {
    if s != [] && IsSpace(s[|s| - 1]) then
      var r := RStrip(s[..|s| - 1]);
      assert s[|r|..] == s[..|s| - 1][|r|..] + [s[|s| - 1]];
      r
    else s
  }

  /** Python's `s.strip()`: the longest infix of `s` that neither starts
      nor ends with white space, reached by dropping only white space. */
  function Strip(s: string): (r: string)
    ensures |r| <= |s|
    ensures r != [] ==> !IsSpace(r[0]) && !IsSpace(r[|r| - 1])
    ensures r == [] <==> Blank(s)
  {
    var l := LStrip(s);
    var r := RStrip(l);
    TrimmedInfix(s, l, r);
    r
  }

  /** `strip()` removes only white space: its result is an infix of `s`
      with nothing but white space on either side. */
  lemma StripIsInfix(s: string)
    ensures exists i :: InfixAt(s, Strip(s), i)
  {
    var l := LStrip(s);
    var r := RStrip(l);
    TrimmedInfix(s, l, r);
    assert Strip(s) == r;
    assert InfixAt(s, r, |s| - |l|);
  }

  /** `r` sits in `s` at offset `i` with only white space around it. */
  predicate InfixAt(s: string, r: string, i: int) {
    0 <= i <= |s| - |r| && r == s[i..i + |r|] && Blank(s[..i]) && Blank(s[i + |r|..])
  }

  /** Dropping white space from the front of `s` (giving `l`) and then from
      the back of `l` (giving `r`) leaves an infix of `s` surrounded by
      white space, which is empty exactly when `s` is all white space. */
  lemma TrimmedInfix(s: string, l: string, r: string)
    requires |l| <= |s| && l == s[|s| - |l|..] && Blank(s[..|s| - |l|])
    requires l != [] ==> !IsSpace(l[0])
    requires |r| <= |l| && r == l[..|r|] && Blank(l[|r|..])
    requires r != [] ==> !IsSpace(r[|r| - 1])
    ensures var i := |s| - |l|;
            && r == s[i..i + |r|] && Blank(s[..i]) && Blank(s[i + |r|..])
    ensures InfixAt(s, r, |s| - |l|)
    ensures r != [] ==> !IsSpace(r[0]) && !IsSpace(r[|r| - 1])
    ensures r == [] <==> Blank(s)
  {
    var i := |s| - |l|;
    assert s[i + |r|..] == l[|r|..];
    if r == [] {
      assert l[|r|..] == l;
      BlankConcat(s[..i], l);
      assert s == s[..i] + l;
    } else {
      assert r[0] == l[0] == s[i];
    }
  }

  lemma BlankConcat(a: string, b: string)
    requires Blank(a) && Blank(b)
    ensures Blank(a + b)
  {
    assert forall k :: 0 <= k < |a| ==> (a + b)[k] == a[k];
    assert forall k :: |a| <= k < |a + b| ==> (a + b)[k] == b[k - |a|];
  }

  /** Stripping a string that already has no white space at either end
      returns it unchanged. */
  lemma StripUnchanged(s: string)
    requires s == [] || (!IsSpace(s[0]) && !IsSpace(s[|s| - 1]))
    ensures Strip(s) == s
  {
  }

  /** `strip()` is idempotent. */
  lemma StripIdempotent(s: string)
    ensures Strip(Strip(s)) == Strip(s)
  {
    StripUnchanged(Strip(s));
  }

  /** Stripping never touches a non-blank prefix: if `s` starts with `p` and
      `p` starts and ends with non-space characters, so does `Strip(s)`. */
  lemma StripKeepsPrefix(s: string, p: string)
    requires |p| >= 1 && |s| >= |p| && s[..|p|] == p
    requires !IsSpace(p[0]) && !IsSpace(p[|p| - 1])
    ensures |Strip(s)| >= |p| && Strip(s)[..|p|] == p
  {
    assert s[0] == p[0];
    assert LStrip(s) == s;
    assert !IsSpace(s[|p| - 1]);
  }

  /** Leading white space before a single non-space character is all
      stripped away. */
  lemma StripLeadingBlank(w: string, c: char)
    requires Blank(w) && !IsSpace(c)
    ensures Strip(w + [c]) == [c]
  {
    var s := w + [c];
    var l := LStrip(s);
    assert !Blank(s[..|s|]) by {
      assert s[..|s|][|w|] == c;
    }
    assert forall k :: 0 <= k < |w| ==> IsSpace(s[k]);
    assert l == [c];
  }

  /** Python's `s.rstrip(c)` for a single character `c`. */
  function RStripChar(s: string, c: char): (r: string)
    ensures |r| <= |s| && r == s[..|r|]
    ensures forall k :: |r| <= k < |s| ==> s[k] == c
    ensures r != [] ==> r[|r| - 1] != c
    decreases |s|
  {
    if s != [] && s[|s| - 1] == c then RStripChar(s[..|s| - 1], c) else s
  }

  /** Python's `s.replace(c, '')`: every occurrence of `c` removed, every
      other character kept in order. */
  function RemoveChar(s: string, c: char): (r: string)
    ensures c !in r
    ensures |r| <= |s|
    ensures c !in s ==> r == s
    decreases |s|
  {
    if s == [] then []
    else
      var rest := RemoveChar(s[1..], c);
      if s[0] == c then rest else [s[0]] + rest
  }

  /** `RemoveChar` keeps every other character as often as it occurs. */
  lemma {:induction false} RemoveCharMultiset(s: string, c: char)
    ensures multiset(RemoveChar(s, c)) == multiset(s)[c := 0]
    decreases |s|
  {
    if s != [] {
      RemoveCharMultiset(s[1..], c);
      assert s == [s[0]] + s[1..];
    }
  }

  /** Removing `c` from a string made only of `c` leaves nothing. */
  lemma {:induction false} RemoveCharAll(s: string, c: char)
    requires forall k :: 0 <= k < |s| ==> s[k] == c
    ensures RemoveChar(s, c) == []
    decreases |s|
  {
    if s != [] {
      RemoveCharAll(s[1..], c);
    }
  }

  /** Removing a character distributes over concatenation. */
  lemma {:induction false} RemoveCharConcat(a: string, b: string, c: char)
    ensures RemoveChar(a + b, c) == RemoveChar(a, c) + RemoveChar(b, c)
    decreases |a|
  {
    if a == [] {
      assert a + b == b;
    } else {
      assert (a + b)[0] == a[0];
      assert (a + b)[1..] == a[1..] + b;
      RemoveCharConcat(a[1..], b, c);
    }
  }

  /** Python's `s.split(sep)` for a one-character separator: the pieces
      between consecutive separators, always at least one. */
  function Split(s: string, sep: char): (parts: seq<string>)
    ensures |parts| >= 1
    ensures forall i :: 0 <= i < |parts| ==> sep !in parts[i]
    decreases |s|
  {
    if s == [] then [[]]
    else
      var rest := Split(s[1..], sep);
      if s[0] == sep then [[]] + rest
      else [[s[0]] + rest[0]] + rest[1..]
  }

  /** Python's `sep.join(parts)`; the inverse of `Split`. */
  function Join(parts: seq<string>, sep: char): string
    decreases |parts|
  {
    if |parts| == 0 then []
    else if |parts| == 1 then parts[0]
    else parts[0] + [sep] + Join(parts[1..], sep)
  }

  /** Joining the pieces of a split restores the string. */
  lemma {:induction false} JoinSplit(s: string, sep: char)
    ensures Join(Split(s, sep), sep) == s
    decreases |s|
  {
    if s != [] {
      var rest := Split(s[1..], sep);
      JoinSplit(s[1..], sep);
      if s[0] == sep {
        assert ([[]] + rest)[1..] == rest;
      } else {
        var parts := [[s[0]] + rest[0]] + rest[1..];
        if |rest| == 1 {
          assert parts == [[s[0]] + rest[0]];
        } else {
          assert parts[1..] == rest[1..];
          assert Join(rest, sep) == rest[0] + [sep] + Join(rest[1..], sep);
        }
      }
    }
  }

  /** A piece with no separator in front of a separator splits off as one
      part. */
  lemma {:induction false} SplitPrefix(a: string, sep: char, rest: string)
    requires sep !in a
    ensures Split(a + [sep] + rest, sep) == [a] + Split(rest, sep)
    decreases |a|
  {
    var s := a + [sep] + rest;
    if a == [] {
      assert s[1..] == rest;
    } else {
      assert s[1..] == a[1..] + [sep] + rest;
      SplitPrefix(a[1..], sep, rest);
      assert [a[0]] + a[1..] == a;
    }
  }

  /** A string without the separator splits into itself. */
  lemma {:induction false} SplitNoSeparator(a: string, sep: char)
    requires sep !in a
    ensures Split(a, sep) == [a]
    decreases |a|
  {
    if a != [] {
      SplitNoSeparator(a[1..], sep);
      assert [a[0]] + a[1..] == a;
    }
  }

  /** Splitting a join of separator-free pieces gives the pieces back. */
  lemma {:induction false} SplitJoin(parts: seq<string>, sep: char)
    requires |parts| >= 1
    requires forall i :: 0 <= i < |parts| ==> sep !in parts[i]
    ensures Split(Join(parts, sep), sep) == parts
    decreases |parts|
  {
    if |parts| == 1 {
      SplitNoSeparator(parts[0], sep);
    } else {
      SplitJoin(parts[1..], sep);
      SplitPrefix(parts[0], sep, Join(parts[1..], sep));
      assert [parts[0]] + parts[1..] == parts;
    }
  }

  predicate IsDigit(c: char) {
    '0' as int <= c as int <= '9' as int
  }

  function DigitChar(d: int): (c: char)
    requires 0 <= d < 10
    ensures IsDigit(c) && c as int - '0' as int == d
  {
    ('0' as int + d) as char
  }

  /** The value of a string of decimal digits, most significant first. */
  function DigitsValue(s: string): nat
    requires forall k :: 0 <= k < |s| ==> IsDigit(s[k])
    decreases |s|
  {
    if s == [] then 0
    else
      assert IsDigit(s[|s| - 1]);
      10 * DigitsValue(s[..|s| - 1]) + (s[|s| - 1] as int - '0' as int)
  }

  /** The decimal digits of `n` without leading zeros (Python's `str(n)`
      for `n >= 0`). */
  function NatDigits(n: nat): (r: string)
    ensures |r| >= 1
    ensures forall k :: 0 <= k < |r| ==> IsDigit(r[k])
    ensures DigitsValue(r) == n
    ensures |r| > 1 ==> r[0] != '0'
    decreases n
  {
    if n < 10 then [DigitChar(n)]
    else
      var r := NatDigits(n / 10) + [DigitChar(n % 10)];
      assert r[..|r| - 1] == NatDigits(n / 10);
      r
  }

  /** Python's `str(n)` for an integer. */
  function Decimal(n: int): string {
    if n < 0 then "-" + NatDigits(-n) else NatDigits(n)
  }

  /** `str(n)` is never empty and ends in a digit. */
  lemma DecimalEndsInDigit(n: int)
    ensures |Decimal(n)| >= 1 && IsDigit(Decimal(n)[|Decimal(n)| - 1])
    ensures !IsSpace(Decimal(n)[|Decimal(n)| - 1])
  {
  }

  function Pow10(w: nat): (p: nat)
    ensures p >= 1
  {
    if w == 0 then 1 else 10 * Pow10(w - 1)
  }

  /** `n` written with exactly `w` digits, zero-padded on the left (the
      `%Y`, `%m`, `%d`, `%H`, `%M`, `%S` fields of `strftime`). */
  function PadDigits(n: nat, w: nat): (r: string)
    ensures |r| == w
    ensures forall k :: 0 <= k < |r| ==> IsDigit(r[k])
    ensures n < Pow10(w) ==> DigitsValue(r) == n
    decreases w
  {
    if w == 0 then []
    else
      var r := PadDigits(n / 10, w - 1) + [DigitChar(n % 10)];
      assert r[..|r| - 1] == PadDigits(n / 10, w - 1);
      r
  }

  /** Python's ordering of `str` values: lexicographic by code point, a
      proper prefix sorting first. */
  predicate StrLess(a: string, b: string)
    decreases |a|
  {
    if a == [] then b != []
    else if b == [] then false
    else if a[0] != b[0] then a[0] < b[0]
    else StrLess(a[1..], b[1..])
  }

  lemma {:induction false} StrLessIrreflexive(a: string)
    ensures !StrLess(a, a)
    decreases |a|
  {
    if a != [] {
      StrLessIrreflexive(a[1..]);
    }
  }

  lemma {:induction false} StrLessTransitive(a: string, b: string, c: string)
    requires StrLess(a, b) && StrLess(b, c)
    ensures StrLess(a, c)
    decreases |a|
  {
    if a != [] && b != [] && c != [] && a[0] == b[0] == c[0] {
      StrLessTransitive(a[1..], b[1..], c[1..]);
    }
  }

  lemma {:induction false} StrLessTotal(a: string, b: string)
    ensures a == b || StrLess(a, b) || StrLess(b, a)
    decreases |a|
  {
    if a != [] && b != [] && a[0] == b[0] {
      StrLessTotal(a[1..], b[1..]);
      if a[1..] == b[1..] {
        assert a == [a[0]] + a[1..] && b == [b[0]] + b[1..];
      }
    }
  }

  lemma StrLessAsymmetric(a: string, b: string)
    requires StrLess(a, b)
    ensures !StrLess(b, a)
  {
    if StrLess(b, a) {
      StrLessTransitive(a, b, a);
      StrLessIrreflexive(a);
    }
  }

  /** Comparing two concatenations whose first parts have equal length
      compares the first parts, then the second. */
  lemma {:induction false} StrLessConcat(a1: string, a2: string, b1: string, b2: string)
    requires |a1| == |b1|
    ensures StrLess(a1 + a2, b1 + b2) <==> StrLess(a1, b1) || (a1 == b1 && StrLess(a2, b2))
    decreases |a1|
  {
    if a1 == [] {
      assert a1 + a2 == a2 && b1 + b2 == b2;
    } else {
      assert (a1 + a2)[0] == a1[0] && (b1 + b2)[0] == b1[0];
      assert (a1 + a2)[1..] == a1[1..] + a2;
      assert (b1 + b2)[1..] == b1[1..] + b2;
      StrLessConcat(a1[1..], a2, b1[1..], b2);
      if a1[0] == b1[0] && a1[1..] == b1[1..] {
        assert a1 == [a1[0]] + a1[1..] && b1 == [b1[0]] + b1[1..];
      }
    }
  }

  /** Comparing by the leading digits first, then the last one, is
      comparing numbers. */
  lemma DivModOrder(n: nat, m: nat)
    ensures n < m <==> n / 10 < m / 10 || (n / 10 == m / 10 && n % 10 < m % 10)
  {
    assert n == 10 * (n / 10) + n % 10 && m == 10 * (m / 10) + m % 10;
  }

  lemma DivBelow(n: nat, p: nat)
    requires n < 10 * p
    ensures n / 10 < p
  {
  }

  /** Zero-padded numbers of one width sort as strings exactly as they sort
      as numbers. */
  lemma {:induction false} PadDigitsOrder(n: nat, m: nat, w: nat)
    requires n < Pow10(w) && m < Pow10(w)
    ensures StrLess(PadDigits(n, w), PadDigits(m, w)) <==> n < m
    decreases w
  {
    if w > 0 {
      var p := Pow10(w - 1);
      DivBelow(n, p);
      DivBelow(m, p);
      PadDigitsOrder(n / 10, m / 10, w - 1);
      PadDigitsInjective(n / 10, m / 10, w - 1);
      var a, b := DigitChar(n % 10), DigitChar(m % 10);
      StrLessConcat(PadDigits(n / 10, w - 1), [a], PadDigits(m / 10, w - 1), [b]);
      assert StrLess([a], [b]) <==> n % 10 < m % 10 by {
        var e: string := [];
        assert [a][1..] == e && [b][1..] == e;
      }
      DivModOrder(n, m);
    }
  }

  /** Within its width, `PadDigits` loses no information. */
  lemma PadDigitsInjective(n: nat, m: nat, w: nat)
    requires n < Pow10(w) && m < Pow10(w)
    ensures PadDigits(n, w) == PadDigits(m, w) <==> n == m
  {
    if PadDigits(n, w) == PadDigits(m, w) {
      assert DigitsValue(PadDigits(n, w)) == n;
    }
  }

  /** True when `s` begins with `p`. */
  predicate StartsWith(s: string, p: string) {
    |p| <= |s| && s[..|p|] == p
  }

  /** Appending keeps a prefix. */
  lemma StartsWithAppend(s: string, p: string, rest: string)
    requires StartsWith(s, p)
    ensures StartsWith(s + rest, p)
  {
    assert (s + rest)[..|p|] == s[..|p|];
  }

  /** True when `s` ends with `p`. */
  predicate EndsWith(s: string, p: string) {
    |p| <= |s| && s[|s| - |p|..] == p
  }
}

=== FILE: results.dfy ===
/** Success/failure values shared by every module of the model.
    The Python code signals failure by raising; here every operation that
    can raise returns a `Result` whose error part carries what the raised
    exception would have carried. */
module Results {

  datatype Option<+T> = None | Some(value: T) {

    /** The value, or `default` when there is none (Python's `x or default`
        on an absent key, `dict.get(k, default)`). */
    function GetOr(default: T): T {
      match this
      case Some(v) => v
      case None => default
    }
  }

  datatype Result<+T, +E> = Ok(value: T) | Err(error: E) {

    predicate IsFailure() {
      Err?
    }

    function PropagateFailure<U>(): Result<U, E>
      requires Err?
    {
      Err(error)
    }

    function Extract(): T
      requires Ok?
    {
      value
    }
  }
}

=== FILE: stamps.dfy ===
/** Wall-clock instants at one-second resolution and their
    `strftime('%Y%m%d_%H%M%S')` rendering, which both services use to name
    the files they write. */
module Stamps {
  import opened PyText

  /** The fields of `datetime.now()` that `%Y%m%d_%H%M%S` shows. */
  datatype DateTime = DateTime(year: nat, month: nat, day: nat, hour: nat, minute: nat, second: nat)

  /** The range `datetime` produces with four-digit years. */
  predicate Valid(t: DateTime) {
    && 1000 <= t.year <= 9999
    && 1 <= t.month <= 12
    && 1 <= t.day <= 31
    && t.hour <= 23
    && t.minute <= 59
    && t.second <= 59
  }

  /** Chronological order at one-second resolution. */
  predicate Before(a: DateTime, b: DateTime) {
    || a.year < b.year
    || (a.year == b.year && a.month < b.month)
    || (a.year == b.year && a.month == b.month && a.day < b.day)
    || (a.year == b.year && a.month == b.month && a.day == b.day && a.hour < b.hour)
    || (a.year == b.year && a.month == b.month && a.day == b.day && a.hour == b.hour
        && a.minute < b.minute)
    || (a.year == b.year && a.month == b.month && a.day == b.day && a.hour == b.hour
        && a.minute == b.minute && a.second < b.second)
  }

  function Time(t: DateTime): string {
    PadDigits(t.hour, 2) + (PadDigits(t.minute, 2) + PadDigits(t.second, 2))
  }

  function Date(t: DateTime): string {
    PadDigits(t.year, 4) + (PadDigits(t.month, 2) + PadDigits(t.day, 2))
  }

  /** `t.strftime('%Y%m%d_%H%M%S')`. */
  function Compact(t: DateTime): (r: string)
    ensures |r| == 15 && r[8] == '_'
    ensures forall k :: 0 <= k < 15 && k != 8 ==> IsDigit(r[k])
  {
    Date(t) + ("_" + Time(t))
  }

  /** Equal-width zero-padded fields compare as strings the way the
      instants compare in time. */
  lemma CompactOrder(a: DateTime, b: DateTime)
    requires Valid(a) && Valid(b)
    ensures StrLess(Compact(a), Compact(b)) <==> Before(a, b)
  {
    FieldOrder(a.year, b.year, 4);
    FieldOrder(a.month, b.month, 2);
    FieldOrder(a.day, b.day, 2);
    FieldOrder(a.hour, b.hour, 2);
    FieldOrder(a.minute, b.minute, 2);
    FieldOrder(a.second, b.second, 2);
    ThreeParts(PadDigits(a.year, 4), PadDigits(a.month, 2), PadDigits(a.day, 2),
               PadDigits(b.year, 4), PadDigits(b.month, 2), PadDigits(b.day, 2));
    ThreeParts(PadDigits(a.hour, 2), PadDigits(a.minute, 2), PadDigits(a.second, 2),
               PadDigits(b.hour, 2), PadDigits(b.minute, 2), PadDigits(b.second, 2));
    StrLessConcat(Date(a), "_" + Time(a), Date(b), "_" + Time(b));
    StrLessConcat("_", Time(a), "_", Time(b));
    StrLessIrreflexive("_");
  }

  /** Three adjacent equal-width parts compare lexicographically part by part. */
  lemma ThreeParts(x1: string, x2: string, x3: string, y1: string, y2: string, y3: string)
    requires |x1| == |y1| && |x2| == |y2| && |x3| == |y3|
    ensures StrLess(x1 + (x2 + x3), y1 + (y2 + y3))
            <==> StrLess(x1, y1) || (x1 == y1 && (StrLess(x2, y2) || (x2 == y2 && StrLess(x3, y3))))
    ensures x1 + (x2 + x3) == y1 + (y2 + y3) <==> x1 == y1 && x2 == y2 && x3 == y3
  {
    StrLessConcat(x1, x2 + x3, y1, y2 + y3);
    StrLessConcat(x2, x3, y2, y3);
    ConcatEqual(x1, x2 + x3, y1, y2 + y3);
    ConcatEqual(x2, x3, y2, y3);
  }

  lemma ConcatEqual(a1: string, a2: string, b1: string, b2: string)
    requires |a1| == |b1|
    ensures a1 + a2 == b1 + b2 <==> a1 == b1 && a2 == b2
  {
    if a1 + a2 == b1 + b2 {
      assert a1 == (a1 + a2)[..|a1|] && b1 == (b1 + b2)[..|b1|];
      assert a2 == (a1 + a2)[|a1|..] && b2 == (b1 + b2)[|b1|..];
    }
  }

  /** One field of the rendering: order and equality follow the number. */
  lemma FieldOrder(n: nat, m: nat, w: nat)
    requires n < Pow10(w) && m < Pow10(w)
    ensures StrLess(PadDigits(n, w), PadDigits(m, w)) <==> n < m
    ensures PadDigits(n, w) == PadDigits(m, w) <==> n == m
  {
    PadDigitsOrder(n, m, w);
    PadDigitsInjective(n, m, w);
  }

  /** Distinct instants (at one-second resolution) render differently. */
  lemma CompactInjective(a: DateTime, b: DateTime)
    requires Valid(a) && Valid(b)
    ensures Compact(a) == Compact(b) <==> a == b
  {
    if Compact(a) == Compact(b) && a != b {
      if Before(a, b) {
        CompactOrder(a, b);
      } else {
        CompactOrder(b, a);
      }
      StrLessIrreflexive(Compact(a));
    }
  }

  /** A file name that frames the stamp between a fixed prefix and suffix
      identifies the instant and sorts like it. */
  lemma StampedNameOrder(pre: string, suf: string, a: DateTime, b: DateTime)
    requires Valid(a) && Valid(b)
    ensures pre + Compact(a) + suf == pre + Compact(b) + suf <==> a == b
    ensures StrLess(pre + Compact(a) + suf, pre + Compact(b) + suf) <==> Before(a, b)
  {
    CompactInjective(a, b);
    CompactOrder(a, b);
    assert pre + Compact(a) + suf == pre + (Compact(a) + suf);
    assert pre + Compact(b) + suf == pre + (Compact(b) + suf);
    StrLessConcat(pre, Compact(a) + suf, pre, Compact(b) + suf);
    StrLessIrreflexive(pre);
    StrLessConcat(Compact(a), suf, Compact(b), suf);
    StrLessIrreflexive(suf);
    if pre + Compact(a) + suf == pre + Compact(b) + suf {
      assert (pre + (Compact(a) + suf))[|pre|..|pre| + 15] == Compact(a);
      assert (pre + (Compact(b) + suf))[|pre|..|pre| + 15] == Compact(b);
    }
  }
}

=== FILE: workflow.dfy ===
/** The orchestrator's pipeline (`Orchestrator.run_instagram_workflow` in
    api/main.py): draft with Agent1, refine with Agent2, then ask Agent2 for
    an image prompt, each stage fed the previous stage's output. It is given
    twice: as the straight-line driver the code is, and as the state machine
    Start -> DraftGenerated -> Refined -> ImagePromptGenerated -> Complete
    with Failed reachable from every stage call; a lemma shows they agree. */
module Workflow {
  import opened Results
  import opened JsonValues
  import opened Http
  import opened StageClients

  /** The four inputs of a run, echoed as the result's `metadata`. */
  datatype Request = Request(topic: string, style: string, tone: string, targetAudience: string)

  /** The keyword defaults of `run_instagram_workflow`, which the web
      gateway's request model repeats. */
  function NewRequest(topic: string, style: string, tone: Option<string>, targetAudience: Option<string>): (r: Request)
    ensures r.topic == topic && r.style == style
    ensures tone.Some? ==> r.tone == tone.value
    ensures tone.None? ==> r.tone == "criativo"
    ensures targetAudience.Some? ==> r.targetAudience == targetAudience.value
    ensures targetAudience.None? ==> r.targetAudience == "público geral"
  {
    Request(topic, style, tone.GetOr("criativo"), targetAudience.GetOr("público geral"))
  }

  /** The dictionary a successful run returns. */
  datatype WorkflowResult = WorkflowResult(
    draft: string,
    finalPost: string,
    imagePrompt: string,
    timestamp: string,
    metadata: Request)

  /** An orchestrator owns one client per agent. */
  datatype Orchestrator = Orchestrator(agent1: Client, agent2: Client)

  /** What the driver sees of its two clients: the output each stage's
      call yields. The driver never looks inside a stage, so it is given
      the stages as a function; `Clients` is the one the HTTP stage clients
      make of the network's answers. */
  datatype Env = Env(outputs: (Stage, Call) -> Result<string, OrchestratorError>)

  /** The stage clients of StageClients, given how the network answers
      each request and how Python renders a non-string JSON value with
      `str()`. */
  function Clients(net: Call -> Outcome, render: Json -> string): Env {
    Env((stage, call) => CallStage(stage, net(call), render))
  }

  /** A run: the requests sent, in order, and the result or the
      `OrchestratorError` raised. */
  datatype Run = Run(calls: seq<Call>, result: Result<WorkflowResult, OrchestratorError>)

  /** The stage of the `i`-th request of a run. */
  function StageAt(i: nat): Stage
    requires i < 3
  {
    [Draft, Improve, ImagePrompt][i]
  }

  /** The request a stage sends, given the previous stage's output (the
      draft stage has none). */
  function StageRequest(o: Orchestrator, req: Request, stage: Stage, previous: string): Call {
    match stage
    case Draft => DraftCall(o.agent1, req.topic, req.style, req.tone)
    case Improve => ImproveCall(o.agent2, previous, req.targetAudience)
    case ImagePrompt => ImagePromptCall(o.agent2, previous)
  }

  /** What a stage's client makes of the answer to its request. */
  function Output(env: Env, stage: Stage, call: Call): Result<string, OrchestratorError> {
    env.outputs(stage, call)
  }

  /** What a run of the driver is: one to three requests, the first the
      draft request and each later one built from the previous stage's
      output, which was a success; a failed run carries the error of its
      last stage unchanged; a successful run made all three requests and
      carries their outputs, `now` and the request as metadata. */
  predicate Sequenced(o: Orchestrator, req: Request, env: Env, now: string, run: Run) {
    && 1 <= |run.calls| <= 3
    && run.calls[0] == StageRequest(o, req, Draft, "")
    && (|run.calls| >= 2 ==>
          && Output(env, Draft, run.calls[0]).Ok?
          && run.calls[1] == StageRequest(o, req, Improve, Output(env, Draft, run.calls[0]).value))
    && (|run.calls| == 3 ==>
          && Output(env, Improve, run.calls[1]).Ok?
          && run.calls[2] == StageRequest(o, req, ImagePrompt, Output(env, Improve, run.calls[1]).value))
    && (run.result.Err? ==>
          Output(env, StageAt(|run.calls| - 1), run.calls[|run.calls| - 1]) == Err(run.result.error))
    && (run.result.Ok? ==>
          && |run.calls| == 3
          && Output(env, Draft, run.calls[0]) == Ok(run.result.value.draft)
          && Output(env, Improve, run.calls[1]) == Ok(run.result.value.finalPost)
          && Output(env, ImagePrompt, run.calls[2]) == Ok(run.result.value.imagePrompt)
          && run.result.value.timestamp == now
          && run.result.value.metadata == req)
  }

  /** The run after a successful draft stage. */
  function RunAfterDraft(o: Orchestrator, req: Request, env: Env, now: string, draft: string): (run: Run)
    requires Output(env, Draft, StageRequest(o, req, Draft, "")) == Ok(draft)
    ensures Sequenced(o, req, env, now, run)
  {
    var c1 := StageRequest(o, req, Draft, "");
    var c2 := StageRequest(o, req, Improve, draft);
    match Output(env, Improve, c2)
    case Err(e) => Run([c1, c2], Err(e))
    case Ok(finalPost) =>
      var c3 := StageRequest(o, req, ImagePrompt, finalPost);
      match Output(env, ImagePrompt, c3)
      case Err(e) => Run([c1, c2, c3], Err(e))
      case Ok(imagePrompt) =>
        Run([c1, c2, c3], Ok(WorkflowResult(draft, finalPost, imagePrompt, now, req)))
  }

  /** `run_instagram_workflow`; `now` is the timestamp it takes before the
      first stage. The stages run in order, each request carrying the
      previous stage's output; the first failing stage ends the run with
      its error unchanged and no later request is sent; a successful run
      returns the three outputs, `now` and the request as metadata. */
  function RunWorkflow(o: Orchestrator, req: Request, env: Env, now: string): (run: Run)
    ensures Sequenced(o, req, env, now, run)
  {
    var c1 := StageRequest(o, req, Draft, "");
    match Output(env, Draft, c1)
    case Err(e) => Run([c1], Err(e))
    case Ok(draft) => RunAfterDraft(o, req, env, now, draft)
  }

  /** The pipeline's states. `Failed` records the stage whose call failed. */
  datatype State =
    | Start
    | DraftGenerated(draft: string)
    | Refined(draft: string, finalPost: string)
    | ImagePromptGenerated(draft: string, finalPost: string, imagePrompt: string)
    | Complete(result: WorkflowResult)
    | Failed(stage: Stage, error: OrchestratorError)

  predicate Terminal(s: State) {
    s.Complete? || s.Failed?
  }

  /** How far along the pipeline a state is. */
  function Rank(s: State): nat {
    match s
    case Start => 0
    case DraftGenerated(_) => 1
    case Refined(_, _) => 2
    case ImagePromptGenerated(_, _, _) => 3
    case Complete(_) => 4
    case Failed(_, _) => 4
  }

  /** One transition and the request it sends, if any. */
  datatype Transition = Transition(next: State, sent: seq<Call>)

  /** Leaves a stage-calling state: to the next state on success, to
      `Failed` with that stage otherwise. */
  function Attempt(env: Env, stage: Stage, call: Call, success: string -> State): Transition {
    match Output(env, stage, call)
    case Ok(v) => Transition(success(v), [call])
    case Err(e) => Transition(Failed(stage, e), [call])
  }

  /** One step of the machine. A terminal state does not move; any other
      state moves one rank forward or to `Failed`, sending at most one
      request; only the three stage calls can fail. */
  function Step(o: Orchestrator, req: Request, env: Env, now: string, s: State): (t: Transition)
    ensures Terminal(s) ==> t == Transition(s, [])
    ensures !Terminal(s) ==> t.next.Failed? || Rank(t.next) == Rank(s) + 1
    ensures t.next.Failed? && !s.Failed? ==> t.sent == [StageRequest(o, req, t.next.stage, Previous(s))]
    ensures |t.sent| <= 1
    ensures s.ImagePromptGenerated? ==> t.next.Complete? && t.sent == []
  {
    match s
    case Start =>
      Attempt(env, Draft, StageRequest(o, req, Draft, ""), d => DraftGenerated(d))
    case DraftGenerated(d) =>
      Attempt(env, Improve, StageRequest(o, req, Improve, d), f => Refined(d, f))
    case Refined(d, f) =>
      Attempt(env, ImagePrompt, StageRequest(o, req, ImagePrompt, f), i => ImagePromptGenerated(d, f, i))
    case ImagePromptGenerated(d, f, i) =>
      Transition(Complete(WorkflowResult(d, f, i, now, req)), [])
    case _ => Transition(s, [])
  }

  /** The output a state hands to the next stage. */
  function Previous(s: State): string {
    match s
    case DraftGenerated(d) => d
    case Refined(_, f) => f
    case _ => ""
  }

  /** Runs the machine for at most `fuel` steps, collecting the requests. */
  function Drive(o: Orchestrator, req: Request, env: Env, now: string, s: State, fuel: nat): (State, seq<Call>)
    decreases fuel
  {
    if fuel == 0 || Terminal(s) then (s, [])
    else
      var t := Step(o, req, env, now, s);
      var rest := Drive(o, req, env, now, t.next, fuel - 1);
      (rest.0, t.sent + rest.1)
  }

  /** The terminal state that corresponds to a run of the driver: `Complete`
      with its result, or `Failed` with its error, tagged with the stage of
      its last request. */
  function Settled(run: Run): State
    requires 1 <= |run.calls| <= 3
  {
    match run.result
    case Ok(r) => Complete(r)
    case Err(e) => Failed(StageAt(|run.calls| - 1), e)
  }

  /** From `Refined`, the machine makes the image-prompt call and settles. */
  lemma DriveFromRefined(o: Orchestrator, req: Request, env: Env, now: string, d: string, f: string)
    ensures var c3 := StageRequest(o, req, ImagePrompt, f);
            Drive(o, req, env, now, Refined(d, f), 2)
            == (if Output(env, ImagePrompt, c3).Ok?
                then Complete(WorkflowResult(d, f, Output(env, ImagePrompt, c3).value, now, req))
                else Failed(ImagePrompt, Output(env, ImagePrompt, c3).error), [c3])
  {
    var c3 := StageRequest(o, req, ImagePrompt, f);
    var none: seq<Call> := [];
    assert [c3] + none == [c3];
    match Output(env, ImagePrompt, c3)
    case Err(e) =>
      assert Drive(o, req, env, now, Failed(ImagePrompt, e), 1) == (Failed(ImagePrompt, e), none);
    case Ok(i) =>
      var s3 := ImagePromptGenerated(d, f, i);
      var done := Complete(WorkflowResult(d, f, i, now, req));
      assert Step(o, req, env, now, s3) == Transition(done, []);
      assert Drive(o, req, env, now, done, 0) == (done, none);
      assert none + none == none;
      assert Drive(o, req, env, now, s3, 1) == (done, none);
  }

  /** From `DraftGenerated`, the machine makes the improve call and either
      fails or continues from `Refined`. */
  lemma DriveFromDrafted(o: Orchestrator, req: Request, env: Env, now: string, d: string)
    ensures var c2 := StageRequest(o, req, Improve, d);
            Drive(o, req, env, now, DraftGenerated(d), 3)
            == if Output(env, Improve, c2).Ok?
               then
                 var rest := Drive(o, req, env, now, Refined(d, Output(env, Improve, c2).value), 2);
                 (rest.0, [c2] + rest.1)
               else (Failed(Improve, Output(env, Improve, c2).error), [c2])
  {
    var c2 := StageRequest(o, req, Improve, d);
    var none: seq<Call> := [];
    assert [c2] + none == [c2];
    match Output(env, Improve, c2)
    case Err(e) =>
      assert Drive(o, req, env, now, Failed(Improve, e), 2) == (Failed(Improve, e), none);
    case Ok(f) =>
      assert Step(o, req, env, now, DraftGenerated(d)) == Transition(Refined(d, f), [c2]);
  }

  /** From `Start`, a successful draft call leads to `DraftGenerated`. */
  lemma DriveFromStart(o: Orchestrator, req: Request, env: Env, now: string, d: string)
    requires Output(env, Draft, StageRequest(o, req, Draft, "")) == Ok(d)
    ensures var rest := Drive(o, req, env, now, DraftGenerated(d), 3);
            Drive(o, req, env, now, Start, 4) == (rest.0, [StageRequest(o, req, Draft, "")] + rest.1)
  {
    assert Step(o, req, env, now, Start) == Transition(DraftGenerated(d), [StageRequest(o, req, Draft, "")]);
  }

  /** The four ways a run can end, each shown for machine and driver alike. */
  lemma AgreeFailingDraft(o: Orchestrator, req: Request, env: Env, now: string, e: OrchestratorError)
    requires Output(env, Draft, StageRequest(o, req, Draft, "")) == Err(e)
    ensures var run := RunWorkflow(o, req, env, now);
            Drive(o, req, env, now, Start, 4) == (Settled(run), run.calls)
  {
    var c1 := StageRequest(o, req, Draft, "");
    var none: seq<Call> := [];
    assert [c1] + none == [c1];
    assert Drive(o, req, env, now, Failed(Draft, e), 3) == (Failed(Draft, e), none);
    assert RunWorkflow(o, req, env, now) == Run([c1], Err(e));
  }

  lemma AgreeFailingImprove(o: Orchestrator, req: Request, env: Env, now: string, d: string, e: OrchestratorError)
    requires Output(env, Draft, StageRequest(o, req, Draft, "")) == Ok(d)
    requires Output(env, Improve, StageRequest(o, req, Improve, d)) == Err(e)
    ensures var run := RunWorkflow(o, req, env, now);
            Drive(o, req, env, now, Start, 4) == (Settled(run), run.calls)
  {
    var c1 := StageRequest(o, req, Draft, "");
    var c2 := StageRequest(o, req, Improve, d);
    DriveFromStart(o, req, env, now, d);
    DriveFromDrafted(o, req, env, now, d);
    assert [c1] + [c2] == [c1, c2];
    assert RunWorkflow(o, req, env, now) == Run([c1, c2], Err(e));
  }

  lemma AgreeAfterImprove(o: Orchestrator, req: Request, env: Env, now: string, d: string, f: string)
    requires Output(env, Draft, StageRequest(o, req, Draft, "")) == Ok(d)
    requires Output(env, Improve, StageRequest(o, req, Improve, d)) == Ok(f)
    ensures Drive(o, req, env, now, Start, 4)
            == (Drive(o, req, env, now, Refined(d, f), 2).0,
                [StageRequest(o, req, Draft, ""), StageRequest(o, req, Improve, d), StageRequest(o, req, ImagePrompt, f)])
  {
    var c1 := StageRequest(o, req, Draft, "");
    var c2 := StageRequest(o, req, Improve, d);
    var c3 := StageRequest(o, req, ImagePrompt, f);
    DriveFromStart(o, req, env, now, d);
    DriveFromDrafted(o, req, env, now, d);
    DriveFromRefined(o, req, env, now, d, f);
    assert [c1] + ([c2] + [c3]) == [c1, c2, c3];
  }

  lemma AgreeImagePrompt(o: Orchestrator, req: Request, env: Env, now: string, d: string, f: string)
    requires Output(env, Draft, StageRequest(o, req, Draft, "")) == Ok(d)
    requires Output(env, Improve, StageRequest(o, req, Improve, d)) == Ok(f)
    ensures var run := RunWorkflow(o, req, env, now);
            && run.calls == [StageRequest(o, req, Draft, ""), StageRequest(o, req, Improve, d), StageRequest(o, req, ImagePrompt, f)]
            && Drive(o, req, env, now, Refined(d, f), 2).0 == Settled(run)
  {
    var c3 := StageRequest(o, req, ImagePrompt, f);
    DriveFromRefined(o, req, env, now, d, f);
  }

  /** The machine, run from `Start`, reaches a terminal state within four
      steps and does exactly what the driver does: it sends the same
      requests and ends in the state that corresponds to the driver's
      result or error. */
  lemma MachineMatchesDriver(o: Orchestrator, req: Request, env: Env, now: string)
    ensures var run := RunWorkflow(o, req, env, now);
            && Drive(o, req, env, now, Start, 4) == (Settled(run), run.calls)
            && Terminal(Settled(run))
  {
    var c1 := StageRequest(o, req, Draft, "");
    match Output(env, Draft, c1)
    case Err(e) =>
      AgreeFailingDraft(o, req, env, now, e);
    case Ok(d) =>
      var c2 := StageRequest(o, req, Improve, d);
      match Output(env, Improve, c2)
      case Err(e) =>
        AgreeFailingImprove(o, req, env, now, d, e);
      case Ok(f) =>
        AgreeAfterImprove(o, req, env, now, d, f);
        AgreeImagePrompt(o, req, env, now, d, f);
  }

  /** From each state that makes a call, an unreachable agent leads to
      `Failed` for that state's stage. */
  lemma FailureReachable(o: Orchestrator, req: Request, now: string, render: Json -> string, s: State)
    requires s.Start? || s.DraftGenerated? || s.Refined?
    ensures var env := Clients(c => TimedOut(""), render);
            var t := Step(o, req, env, now, s);
            && t.next.Failed?
            && t.next.stage == (if s.Start? then Draft else if s.DraftGenerated? then Improve else ImagePrompt)
            && t.next.error == OrchestratorError(TimeoutMessage(t.next.stage))
  {
    var env := Clients(c => TimedOut(""), render);
    var stage := if s.Start? then Draft else if s.DraftGenerated? then Improve else ImagePrompt;
    var call := StageRequest(o, req, stage, Previous(s));
    assert Output(env, stage, call) == CallStage(stage, TimedOut(""), render);
  }
}
